=== FILE: README.md ===
# Lucky draw: a Dafny model

This project models the logic of a browser prize-draw widget. It has two front
ends and one shared overlay.

- **`LuckyWheel`** (`js/wheel.js`) is a canvas wheel.
  - It lays out sectors whose widths are proportional to prize weights.
  - It commits to a prize before spinning.
  - It eases the wheel through 4–7 extra turns over 5000 ms, then stores a settled angle and resolves with the committed sector.
  - It also has a cumulative-weight selector, two angle-to-prize read-backs and a contrast-colour helper.
- **`GridLottery`** (`lv_turntable/js/grid.js`) is a 3×3 grid.
  - A highlight runs round the eight border cells, slowing down.
  - It stops on a cell fixed before the run starts.
- **`BubbleAnimation`** (`lv_turntable/js/bubbles.js`) is the reveal overlay.
  - Most categories get one persistent claim card.
  - The thank-you category gets a timed burst of 36 floating bubbles.
  - A one-shot completion callback runs when the overlay stops.
- **The page controller** (`lv_turntable/js/main.js`) wires a `GridLottery` and a `BubbleAnimation` together.
  - It provides the draw and claim handlers, the result panel, the Space/Enter shortcut and the page-visibility handler.

Modules:

| module | file | what it holds |
|---|---|---|
| `JsMath` | `js_math.dfy` | `Option`; `Math.floor(Math.random() * n)` with the random draw passed in |
| `Angles` | `angles.dfy` | `Math.PI` as the exact rational value of the IEEE double; JavaScript's sign-of-dividend `%` modulo one turn (`RemTau`); the Euclidean remainder it is compared with (`Wrap`); the wheel's two angle normalisations |
| `Wheel` | `wheel.dfy` | the weighted layout, the selectors, the spin, the animation frames, the settle, the contrast colour; the class `LuckyWheel` |
| `Grid` | `grid.dfy` | the prize table, the traversal ring, the step schedule and delays; the class `GridLottery` |
| `Bubbles` | `bubbles.dfy` | the configuration table, the claim messages, the thank-you burst; the class `BubbleAnimation` |
| `App` | `app.dfy` | the page controller, as the class `Controller` |

How the code is modelled:

- **Classes and in-place state.**
  - Objects whose fields the code updates are classes.
  - Closure variables of a spin in flight are fields of the class: `startAngle` and `totalAngle` of the wheel, `steps`, `step` and `current` of the grid.
  - The DOM state the code reads back is a field: the `active` and `marquee` classes, and the `hidden` class of the result section.
- **Events.** Each callback the browser would run becomes a method the environment calls:
  - animation frames;
  - timers;
  - clicks;
  - `animationend`;
  - key presses;
  - visibility changes.
- **Timers.** Timers the overlay sets wait in the field `timers` until fired. A stop timer fires as `FireTimer` and runs `stop`.
- **Randomness.** Every `Math.random()` draw is a parameter in `[0, 1)`.
- **Behaviour kept as the code has it:**
  - `stop` (`lv_turntable/js/bubbles.js:261-280`) never clears the `setTimeout` that `start` sets at `lv_turntable/js/bubbles.js:92-94`. `Bubbles.StaleStopEndsLaterCard` shows the effect: a thank-you run dismissed early still has its stop timer, which later closes the next claim card and runs that card's callback. A callback still runs at most once: `Bubbles.BubbleAnimation.Stop` clears the stored callback before handing it back, so a second `stop` has nothing to run.
  - `spin` (`lv_turntable/js/grid.js:55-56`) resets `current` to -1 without removing the `active` class the previous run left on its final cell, and `tick` (`lv_turntable/js/grid.js:60`) removes only the class of `order[current]`. During the first round of a later draw two cells can therefore be lit. The model tracks that cell as the ghost field `stale`. `Grid.GridLottery.Tick` proves one lit cell only once the sweep has passed it, and always on the final step.
  - `spin` aims the chosen sector centre at the angle `normalizeAngleForDisplay` reads (`js/wheel.js:240-246`), and `getCurrentPrizeByAngle` reads through it too, while the comments at `js/wheel.js:80` and `js/wheel.js:242` call that angle the 12-o'clock pointer. `drawWheel` (`js/wheel.js:102-104`) paints that angle at 3 o'clock; the 12-o'clock position shows `getNormalizedAngle()`, a quarter turn away (`Wheel.DrawnPositions`, `Wheel.QuarterTurnApart`). The model keeps the code's read-back and states the spin's results in terms of it.
  - The wheel's `spin` picks its sector uniformly (`js/wheel.js:236`); the weighted selector `selectPrizeByWeight` is not called by it. Both are modelled as written.
  - `start` writes the claim message into the shared configuration entry (the `special` one for unknown categories), not into a copy. The model does the same.
- **Behaviour corrected in the class:** the settle callback at `js/wheel.js:255` adds the total rotation a second time (see Findings), while the comment at `js/wheel.js:257` (确保与显示一致, "so that it matches the display") states that the resolved prize and the display agree. `Wheel.SettledAngleAsWritten` models the line as written; `Wheel.LuckyWheel.AnimateFrame` stores the corrected `Wheel.SettledAngle` (see "Left out").

## Model

| member | source | states |
|---|---|---|
| JsMath.UniformIndex | js/wheel.js:236 | `Math.floor(r * n)` for `r` in `[0,1)` is an index below `n` whose slice `[i/n, (i+1)/n)` contains `r`; 0 when `n` is 0 |
| Angles.RemTau | js/wheel.js:53 | JavaScript's `% (2π)`: in `[0, 2π)` for a non-negative dividend, in `(-2π, 0]` for a negative one, and differs from the dividend by whole turns |
| Angles.FoldIsWrap | js/wheel.js:53-54 | taking `% 2π` and adding a turn when negative yields the Euclidean remainder in `[0, 2π)` |
| Angles.Fold | js/wheel.js:53-54 | the fold of `getNormalizedAngle`, `a % 2π` plus a turn when negative, lands in `[0, 2π)` |
| Angles.RemTauShifted | js/wheel.js:246 | the double fold `((x % 2π) + 2π) % 2π` is the Euclidean remainder of `x` for every sign of `x` |
| Angles.WrapOfDifference | js/wheel.js:240-246 | subtracting a reduced angle equals subtracting the angle itself, modulo a turn |
| Angles.NormalizedAngle | js/wheel.js:52-56 | the 12-o'clock angle lies in `[0, 2π)` and is `-currentAngle` modulo a turn |
| Angles.NormalizeForDisplay | js/wheel.js:79-86 | the read-back angle lies in `[0, 2π)` and is `π/2 - angle` modulo a turn |
| Wheel.QuarterTurnApart | js/wheel.js:52-56 | `normalizeAngleForDisplay` is `getNormalizedAngle` plus a quarter turn, modulo a turn, for every rotation |
| Wheel.CanvasAngle | js/wheel.js:102-104 | the painted position of a sector angle is that angle minus the read-back angle, so it lies within one turn below it |
| Wheel.DrawnPositions | js/wheel.js:94-111 | `drawWheel` paints the wheel angle `normalizeAngleForDisplay(θ)` at 3 o'clock (canvas angle 0) and the wheel angle `getNormalizedAngle()` at 12 o'clock (canvas angle `-π/2`), and no other angle of `[0, 2π)` at either place |
| Wheel.Sum | js/wheel.js:60 | the total of positive weights is non-negative, and positive exactly when there is at least one prize |
| Wheel.AngleBeforeIsShare | js/wheel.js:63-69 | the running angle before sector `i` is the weight share of the first `i` prizes times a full turn |
| Wheel.AccumulatorEndsAtTurn | js/wheel.js:65-70 | after the last sector the running angle is exactly one full turn |
| Wheel.AngleBeforeIncreasing | js/wheel.js:65-70 | with positive weights, the running angle strictly increases from sector to sector |
| Wheel.LayoutKeepsWeights | js/wheel.js:65-70 | the layout changes only the angles, not the weights |
| Wheel.Layout | js/wheel.js:59-70 | the laid-out table has one entry per prize, in the same order |
| Wheel.LayoutIsContiguous | js/wheel.js:62-69 | sector 0 starts at angle 0 and every later sector starts where the one before it ends |
| Wheel.LayoutWidths | js/wheel.js:65-67 | every sector is `(weight / totalWeight) * 2π` wide |
| Wheel.LayoutPartitionsTurn | js/wheel.js:59-70 | the sectors keep every other field, start at 0, are contiguous, are each `weight/total` of a turn wide, and end at exactly `2π` |
| Wheel.LayoutIsLaidOut | js/wheel.js:59-70 | the computed layout satisfies the layout invariant used by the class |
| Wheel.SectorWithinTurn | js/wheel.js:59-70 | each laid-out sector is a non-empty interval inside `[0, 2π]` |
| Wheel.SectorsInOrder | js/wheel.js:59-70 | laid-out sectors never overlap and come in table order |
| Wheel.DefaultTableLaysOut | js/wheel.js:14-23 | the eight default weights are positive and their layout satisfies the layout invariant |
| Wheel.LuckyWheel.CalculateSegmentAngles | js/wheel.js:59-76 | the accumulator loop writes exactly the partition `Layout` of the prizes in place |
| Wheel.LuckyWheel.constructor | js/wheel.js:6-35 | a new wheel is at rest at angle 0 with the default table laid out |
| Wheel.SelectPrizeByWeight | js/wheel.js:215-227 | -1 exactly on an empty table; otherwise an index whose earlier cumulative weights are all below the draw, and whose own cumulative weight reaches it unless it is the last-index fallback |
| Wheel.PrizeIndexAtTop | js/wheel.js:37-49 | -1 on an empty table; otherwise the equal-width sector `[i·2π/n, (i+1)·2π/n)` holding the 12-o'clock angle `getNormalizedAngle()` |
| Wheel.EqualSectorBounds | js/wheel.js:40-46 | the floor of angle over sector width is an in-range index whose sector holds the angle, so the clamp never changes it |
| Wheel.SectorCentre | js/wheel.js:240 | the centre is equidistant from both ends of the sector and lies inside a non-empty sector |
| Wheel.TargetAngle | js/wheel.js:240-246 | the target lies in `[0, 2π)` and, read back through `normalizeAngleForDisplay`, gives the chosen sector centre |
| Wheel.SpinTotal | js/wheel.js:249-250 | with 4 or more extra turns from a reduced angle to a reduced target, the rotation exceeds three full turns |
| Wheel.TargetShowsChosenSector | js/wheel.js:237-246 | on a laid-out table the target of sector `i`'s centre reads back, through `normalizeAngleForDisplay`, inside sector `i` and inside no other sector |
| Wheel.LuckyWheel.Spin | js/wheel.js:230-253 | rejected with nothing changed while spinning; otherwise a uniformly drawn sector, 4–7 extra turns, and a total rotation aiming at that sector's centre, more than three turns long |
| Wheel.Progress | js/wheel.js:268-274 | progress lies in `[0, 1]`, is 0 exactly at the start and 1 exactly from 5000 ms on |
| Wheel.EaseOut | js/wheel.js:277 | the cubic ease-out maps 0 to 0 and 1 to 1 and stays in `[0, 1]` |
| Wheel.EaseOutMonotone | js/wheel.js:277 | the ease-out never moves backwards |
| Wheel.FramesSweepForward | js/wheel.js:277-280 | frame angles start at the start angle, end at start plus total, and increase monotonically in between |
| Wheel.FrameAngle | js/wheel.js:277-278 | the frame angle is the start angle at progress 0 and start plus total at progress 1 |
| Wheel.LuckyWheel.AnimateFrame | js/wheel.js:252-292 | before 5000 ms a frame stores the eased angle and keeps spinning; the final frame settles (with the corrected settle) on the target angle, clears the spinning flag and resolves with the committed index, and the stored angle read back through `normalizeAngleForDisplay` falls in that sector and no other |
| Wheel.SettleAsWrittenMissesTarget | js/wheel.js:254-255 | the settle as written stores `2·target - start` modulo a turn, which equals the target only when the target equals the start angle |
| Wheel.SettledAngleAsWritten | js/wheel.js:255 | the settle callback as written: `(this.currentAngle + totalAngle) % 2π` applied after the last frame has already stored `startAngle + totalAngle`, so the rotation is added twice and the stored angle is `2·target - start` modulo a turn |
| Wheel.SettledAngle | js/wheel.js:255 | the corrected settle `currentAngle % 2π` is the Euclidean remainder of the last frame angle and lies in `[0, 2π)` |
| Wheel.SettleReachesTarget | js/wheel.js:280 | reducing the final frame angle modulo a turn stores exactly the target |
| Wheel.DefaultSectors | js/wheel.js:16-22 | in the default layout sector 0 is `[0, 0.16π)` and sector 6 is `[1.6π, 1.9π)` |
| Wheel.FirstSpinStoresWrongAngle | js/wheel.js:246-255 | a first spin from 0 to sector 0 with 4 turns stores, as written, an angle that `normalizeAngleForDisplay` reads back inside sector 6 and outside sector 0 |
| Wheel.FirstSectorSpin | js/wheel.js:240-255 | for sectors laid out as `[0, 0.16π)` and `[1.6π, 1.9π)`, the first is aimed at 0.42π and the angle stored as written reads back at 1.66π, in the second and not the first |
| Wheel.AimAtFirstCentre | js/wheel.js:240-246 | the turn angle 0.42π reads back through `normalizeAngleForDisplay` as the centre 0.08π |
| Wheel.LuckyWheel.GetCurrentPrizeByAngle | js/wheel.js:301-315 | the first sector holding the displayed angle, the last sector if none does, nothing on an empty table |
| Wheel.LuckyWheel.SettleAndReadBack | js/wheel.js:295-298 | with the corrected settle, after the final frame the angle read-back reports the same prize the spin resolved with (with the settle as written it does not: see Findings) |
| Wheel.ContrastColor | js/wheel.js:206-212 | black or white only; black exactly when all three channels parse and `299r + 587g + 114b > 128000` |
| Wheel.ParseHex | js/wheel.js:207-209 | `parseInt(·, 16)` is NaN exactly when the text is empty or starts with a non-hex character, and on all-hex text is the text's base-16 value |
| Wheel.ParseHexByte | js/wheel.js:207-209 | two hex digits written for a byte parse back to that byte |
| Wheel.ContrastOfRgb | js/wheel.js:206-212 | on `#rrggbb` the result is black exactly when the brightness exceeds 128 |
| Grid.OrderCoversBorder | lv_turntable/js/grid.js:6-17 | the order lists eight distinct cells of the nine and never the centre |
| Grid.OrderIsRing | lv_turntable/js/grid.js:6 | consecutive cells of the order, and the last and the first, share a side |
| Grid.Icon | lv_turntable/js/grid.js:36-48 | the centre label gets the target icon; the sparkle default appears exactly for an unknown category off the centre |
| Grid.EveryCellHasIcon | lv_turntable/js/grid.js:7-17 | every cell of the table gets a category icon, and only the centre gets the target |
| Grid.TotalSteps | lv_turntable/js/grid.js:54 | with 3–4 loops the run is 25–40 steps, more than three rounds, and its last step is at the target position |
| Grid.StepDelay | lv_turntable/js/grid.js:64-66 | each wait is between 50 and 250 ms, and 250 once the run is complete |
| Grid.StepDelayMonotone | lv_turntable/js/grid.js:64-66 | the waits never get shorter as the run advances |
| Grid.TickMovesHighlight | lv_turntable/js/grid.js:60-63 | one remove-advance-add moves the position by one round the ring and leaves a single lit cell once the sweep has passed the stale one |
| Grid.TickLands | lv_turntable/js/grid.js:60-73 | a tick of a run moves the position one step round the ring and the lit cells from one step to the next; the last tick lands on the target cell, the only one lit, never the centre |
| Grid.LastStepLandsOnTarget | lv_turntable/js/grid.js:54 | after `steps` ticks the position is `targetIndex`, a border cell |
| Grid.GridLottery.constructor | lv_turntable/js/grid.js:2-19 | a new grid is idle with nothing lit |
| Grid.GridLottery.Spin | lv_turntable/js/grid.js:49-77 | rejected with nothing changed while running; otherwise a uniform target position, 3–4 loops, the matching step count, counters at step 0, position -1, and the first tick asked for after 100 ms |
| Grid.GridLottery.Tick | lv_turntable/js/grid.js:59-76 | the highlight moves one cell and the step count rises by one; before the last step the next wait is `StepDelay`; on the last step the run ends on the pre-chosen cell, which is the only lit one and never the centre |
| Grid.GridLottery.RunToEnd | lv_turntable/js/grid.js:67-77 | a whole run takes exactly `steps` ticks and resolves with the cell chosen at spin time |
| Bubbles.DefaultConfigs | lv_turntable/js/bubbles.js:19-68 | the configuration table has exactly the eight category keys |
| Bubbles.ConfigKey | lv_turntable/js/bubbles.js:299-301 | a known category finds its own entry, any other the `special` one |
| Bubbles.GetBubbleConfig | lv_turntable/js/bubbles.js:299-301 | the entry returned is one of the table's; a known category gets its own, any other the `special` one |
| Bubbles.DefaultLookupIsTotal | lv_turntable/js/bubbles.js:99 | every category, known or not, finds an entry of the default table |
| Bubbles.PrizeMessage | lv_turntable/js/bubbles.js:112-133 | a fixed message for each of six categories; any other describes the current prize, or an unknown prize when there is none |
| Bubbles.FixedMessageIgnoresPrize | lv_turntable/js/bubbles.js:113-125 | the fixed messages do not depend on the current prize |
| Bubbles.FixedMessagesDistinct | lv_turntable/js/bubbles.js:113-125 | no two fixed categories share a claim message |
| Bubbles.ThanksBurstConfig | lv_turntable/js/bubbles.js:86-89 | the burst copy keeps the thank-you colours and replaces text, size and speed |
| Bubbles.BurstBeforeDefaultStop | lv_turntable/js/bubbles.js:249-256 | the burst is 36 bubble timers of that config, 120 ms apart, all before the default 6000 ms stop |
| Bubbles.RandomBetween | lv_turntable/js/bubbles.js:292-294 | the draw lies inside the range |
| Bubbles.Pick | lv_turntable/js/bubbles.js:199-200 | an element of the list, or nothing (`undefined`) exactly when the list is empty |
| Bubbles.IndexOf | lv_turntable/js/bubbles.js:236 | the position of the first bubble with that identity, or -1 when there is none |
| Bubbles.WithoutAbsent | lv_turntable/js/bubbles.js:236-239 | removing an absent identity leaves the list unchanged |
| Bubbles.SpliceIsWithout | lv_turntable/js/bubbles.js:236-239 | with distinct identities, splicing at `indexOf` removes exactly that bubble and keeps the others in order |
| Bubbles.BubbleAnimation.constructor | lv_turntable/js/bubbles.js:6-69 | a new overlay is hidden, empty, with no timers and the default table |
| Bubbles.BubbleAnimation.Start | lv_turntable/js/bubbles.js:76-110 | nothing while running; otherwise stores the callback and shows the overlay; the thank-you category sets the burst and a stop after `duration`, or 6000 ms when `duration <= 0`; any other category overwrites its entry with the claim message, adds one claim card, and sets a stop only when `duration > 0` |
| Bubbles.BubbleAnimation.CreateThanksBurst | lv_turntable/js/bubbles.js:249-256 | the loop appends exactly the 36 burst timers |
| Bubbles.BubbleAnimation.CreateFixedBubble | lv_turntable/js/bubbles.js:151-188 | appends one claim card with the message as a new element |
| Bubbles.BubbleAnimation.CreateBubble | lv_turntable/js/bubbles.js:193-244 | appends one new floating bubble with the next identity, whose caption, colour, size and duration are drawn from the config |
| Bubbles.BubbleAnimation.Stop | lv_turntable/js/bubbles.js:261-280 | hides the overlay, drops every bubble, and hands back the stored callback after clearing it; pending timers stay |
| Bubbles.BubbleAnimation.IsRunning | lv_turntable/js/bubbles.js:285-287 | running exactly while the overlay is shown; when not running there is no pending callback and no claim card |
| Bubbles.BubbleAnimation.OnAnimationEnd | lv_turntable/js/bubbles.js:232-240 | for a floating bubble (the claim card has no `animationend` handler), the finished bubble leaves the list and the others keep their order |
| Bubbles.BubbleAnimation.FireTimer | lv_turntable/js/bubbles.js:252-254 | a fired timer leaves the queue; a stop timer stops whatever is showing then; a burst timer appends one floating bubble with the next identity, its caption, colour, size and duration drawn from that timer's config |
| Bubbles.DismissTwice | lv_turntable/js/bubbles.js:275-279 | closing a claim card twice fires its callback once |
| Bubbles.StaleStopEndsLaterCard | lv_turntable/js/bubbles.js:91-94 | a thank-you run dismissed early still has its stop timer, which later closes the next claim card and fires that card's callback |
| App.GridOutcomesClassified | lv_turntable/js/main.js:145-146 | every border cell is a win except the thank-you cells, and every winning cell has a fixed claim message |
| App.IsWinning | lv_turntable/js/main.js:145-146 | exactly the fixed-message categories and `fourth` win; `thanks`, `again` and `hidden` never do |
| App.Congratulation | lv_turntable/js/main.js:149 | the result line is the prize text between the six fixed characters of the template, so it names exactly that prize |
| App.Controller.constructor | lv_turntable/js/main.js:27-47 | a new page has an idle grid, a hidden overlay, no current prize and the result hidden |
| App.Controller.HideResult | lv_turntable/js/main.js:175-179 | the result section is hidden |
| App.Controller.ShowResult | lv_turntable/js/main.js:143-170 | a win shows the congratulation line and the claim button; anything else hides both and re-enables the draw button |
| App.Controller.HandleSpin | lv_turntable/js/main.js:82-94 | nothing changes, in the page or the grid, while the grid runs; otherwise the page changes only by a hidden result and a disabled, busy-labelled draw button, and the grid starts at step 0 with the target and loop count drawn from the two random values |
| App.Controller.WheelTick | lv_turntable/js/main.js:94-99 | the grid advances one step and keeps running exactly while steps remain; until then the page is unchanged; when it resolves, its cell becomes the current prize and the page changes only as `showResult` says for a win or a non-win |
| App.Controller.Reset | lv_turntable/js/main.js:120-123 | the draw button is enabled and labelled idle |
| App.Controller.HandleClaim | lv_turntable/js/main.js:114-138 | nothing changes, in the page or the overlay, without a prize or while the overlay runs; otherwise the prize is kept, the page changes only by a hidden result, an enabled idle-labelled draw button and a fresh reset callback, and the overlay starts the 6000 ms thank-you burst (config untouched) or a claim card (the shared config entry overwritten, the next identity used) |
| App.Controller.RunCompletion | lv_turntable/js/bubbles.js:275-279 | a callback handed back by `stop` re-enables the draw button |
| App.Controller.DismissOverlay | lv_turntable/js/bubbles.js:12-16 | a dismissal empties and hides the overlay and keeps its pending timers, configs and identity counter; the draw button is re-enabled if a callback was pending, and otherwise the page is unchanged |
| App.Controller.OverlayTimer | lv_turntable/js/bubbles.js:92-94 | the fired timer leaves the queue; a stop timer empties and hides the overlay and re-enables the draw button exactly when a callback was pending; a burst timer appends one floating bubble drawn from that timer's config; the page changes in no other way |
| App.Controller.KeyDown | lv_turntable/js/main.js:60-69 | Space/Enter claims while the result is shown (with `handleClaim`'s effects, and no change while the overlay runs) and draws only while it is hidden and the grid is idle (with `handleSpin`'s effects); in every other case, other keys included, nothing in the page, the grid or the overlay changes |
| App.Controller.VisibilityChange | lv_turntable/js/main.js:254-261 | hiding the page stops a running overlay, keeping its timers, and the pending reset re-enables the draw button (the page is otherwise unchanged); showing it, or hiding it while the overlay is idle, changes nothing in the page or the overlay |

## Findings

| source | as written | input that shows it | evidently intended | confidence | as-written member | corrected member |
|---|---|---|---|---|---|---|
| js/wheel.js:255 | the settle callback stores `(this.currentAngle + totalAngle) % 2π`. The last animation frame (js/wheel.js:280) has already stored `startAngle + totalAngle`, so the rotation is added twice and the stored angle becomes `2·target - start` modulo a turn | the default table, first spin from angle 0, sector 0 chosen, 4 extra turns: target 0.42π, stored 0.84π. Read back through `normalizeAngleForDisplay` (js/wheel.js:79-86) that is 1.66π, inside sector 6 (三等奖) and not sector 0 (特等奖): `getCurrentPrizeByAngle` (js/wheel.js:301-315) reports sector 6 while the spin resolved with sector 0, and the next spin starts from 0.84π (js/wheel.js:270) | store `this.currentAngle % 2π`, i.e. the target, so the read-back agrees with the committed prize, as the comment at js/wheel.js:257 asks | not executed | Wheel.FirstSpinStoresWrongAngle | Wheel.SettleReachesTarget |

`Wheel.SettleAsWrittenMissesTarget` gives the as-written result for every input: the stored angle equals the target only when the target equals the start angle. `Wheel.LuckyWheel.AnimateFrame` uses the corrected settle.

## Left out

- Which sector the painted canvas shows at 12 o'clock after a spin is not related to the prize the spin resolves with: the model's statements about the settled wheel are about the angle read back through `normalizeAngleForDisplay`, and only the angle arithmetic of `drawWheel` is modelled (`Wheel.DrawnPositions`).
- Canvas drawing (`drawWheel`, `drawText`, `drawCenterCircle`, `drawOuterRing`, `init`) and the grid's `render` are left out. They only paint; the displayed angle and the lit cells they paint from are modelled.
- CSS styles, opacity and transform transitions, sound (`playSound`), `console` logging and `validateDisplayConsistency` are left out.
- The touch handlers (`addTouchFeedback`, `touchmove`) are left out.
- The `beforeunload` and global `error` listeners and the `window.LuckyDrawApp` export are left out.
- `requestAnimationFrame`, `Date.now()` and `setTimeout` are replaced by events the environment fires:
  - `AnimateFrame` takes the elapsed milliseconds;
  - the grid's next tick is `Tick`, with the delay in its outcome;
  - the overlay's timers are queued in `timers`.

  The order in which pending timers fire, and whether the environment honours a delay, is not modelled.
- The Promise plumbing of both `spin` methods is left out:
  - The rejection of a second concurrent `spin` is the `accepted = false` result.
  - The resolution is the `Resolved`/`Some` outcome of the final tick or frame.
  - `handleSpin`'s `catch` branch (`lv_turntable/js/main.js:104-108`) cannot be reached: the guard at line 83 rules out the only rejection, so it is not modelled.
- Floating-point rounding is not modelled.
  - Angles and weights are exact reals.
  - `Math.PI` is the exact rational value of its double.
  - Equalities such as "the last sector ends at exactly 2π" hold in the model; in doubles they hold only up to rounding.
- Wheel.ContrastColor: models `parseInt` on two-character slices of hex digits only.
  - A slice with a leading non-hex character gives NaN, as in JavaScript, and a partial run is parsed as far as it goes.
  - Leading whitespace, a sign or a `0x` prefix are not modelled, since the table's colours never contain them.
- Bubbles.ConfigKey: inherited object keys (for example `toString`) are not treated as configuration entries.
- The default parameters of `start` (`bubbleType = 'special'`, `duration = 0`, `onComplete = null`) are not modelled; every caller passes all three.
- `Bubbles.BubbleAnimation.CreateBubble` leaves out these visual properties:
  - the start position;
  - the random animation delay;
  - the extra styling for long captions.
- `Bubbles.BubbleAnimation.CreateFixedBubble` does not model the card's styling. Its close button is the `DismissOverlay` event.
- `createInitialBubbles` (`lv_turntable/js/bubbles.js:138`) is not modelled: nothing calls it.
- Removing bubble elements from the DOM is not modelled; the `bubbles` list stands for them.
- `App.Controller.constructor` takes the initial page state from what `hideResult`/`showResult` would leave:
  - result hidden;
  - claim button hidden;
  - draw button enabled and labelled 立即抽奖.

  The page's own HTML is not part of this model.
- Wheel.LuckyWheel.AnimateFrame: stores `Wheel.SettledAngle` (`this.currentAngle % 2π`) at the end of a spin instead of the `(this.currentAngle + totalAngle) % 2π` of js/wheel.js:255; `Wheel.SettledAngleAsWritten` models the line as written, and the Findings table gives the input on which the two differ.
- Wheel.LuckyWheel.GetCurrentPrizeByAngle: returns the sector index; `getCurrentPrize` returns the prize object at that index.
- The overlay's completion callback is an opaque tagged value. The only callback the page passes is `reset`, which `App.Controller.RunCompletion` runs. Exceptions a callback might throw (and `stop` swallows) are not modelled.

=== FILE: angles.dfy ===
/**
  * Angle arithmetic of the weighted wheel (js/wheel.js), over exact reals.
  *
  * Every remainder in the wheel is taken modulo `2 * Math.PI`, with
  * JavaScript's `%`, whose result has the sign of the dividend. `RemTau` is
  * that operator; `Wrap` is the mathematical (Euclidean) remainder it is
  * compared against.
  */
module Angles {

  /** The IEEE-754 double `Math.PI`, as the exact rational it denotes. */
  const Pi: real := 884279719003555.0 / 281474976710656.0

  /** `2 * Math.PI`, one full turn. */
  const Tau: real := 2.0 * Pi

  /** Truncation toward zero, the quotient JavaScript's `%` is built on. */
  function Trunc(x: real): int
  {
    if x >= 0.0 then x.Floor else -((-x).Floor)
  }

  /** JavaScript's `a % (2 * Math.PI)`. */
  function RemTau(a: real): (r: real)
    ensures a >= 0.0 ==> 0.0 <= r < Tau
    ensures a < 0.0 ==> -Tau < r <= 0.0
    ensures r == a - (Trunc(a / Tau) as real) * Tau
  {
    a - (Trunc(a / Tau) as real) * Tau
  }

  /** The Euclidean remainder of `x` by one full turn: the angle in `[0, Tau)` congruent to `x`. */
  function Wrap(x: real): (r: real)
    ensures 0.0 <= r < Tau
  {
    x - ((x / Tau).Floor as real) * Tau
  }

  /**
    * The folding idiom the wheel uses twice: take `x % (2 * Math.PI)` and add
    * one turn when that is negative.
    */
  function Fold(x: real): (r: real)
    ensures 0.0 <= r < Tau
  {
    var n := RemTau(x);
    if n < 0.0 then n + Tau else n
  }

  /** The idiom lands in `[0, Tau)` and agrees with the Euclidean remainder. */
  lemma FoldIsWrap(x: real)
    ensures Fold(x) == Wrap(x)
    ensures 0.0 <= Fold(x) < Tau
  {
    var q := x / Tau;
    if x >= 0.0 {
      assert Trunc(q) == q.Floor;
    } else if RemTau(x) < 0.0 {
      assert Trunc(q) == q.Floor + 1;
    } else {
      assert Trunc(q) == q.Floor;
    }
  }

  /** An angle already in `[0, Tau)` is its own remainder. */
  lemma WrapOfTurnAngle(x: real)
    requires 0.0 <= x < Tau
    ensures Wrap(x) == x
  {
    assert (x / Tau).Floor == 0;
  }

  /** Adding whole turns does not change the remainder. */
  lemma WrapTurns(x: real, k: int)
    ensures Wrap(x + (k as real) * Tau) == Wrap(x)
  {
    assert (x + (k as real) * Tau) / Tau == x / Tau + k as real;
    assert ((x + (k as real) * Tau) / Tau).Floor == (x / Tau).Floor + k;
  }

  /** Reducing before adding is reducing after adding. */
  lemma WrapOfSum(x: real, y: real)
    ensures Wrap(Wrap(x) + y) == Wrap(x + y)
  {
    var j := -(x / Tau).Floor;
    assert Wrap(x) + y == (x + y) + (j as real) * Tau;
    WrapTurns(x + y, j);
  }

  /** Below two turns, the remainder takes off at most one turn. */
  lemma WrapBelowTwoTurns(x: real)
    requires -Tau <= x < 2.0 * Tau
    ensures Wrap(x) == if x < 0.0 then x + Tau else if x < Tau then x else x - Tau
  {
    if x < 0.0 {
      WrapTurns(x, 1);
      WrapOfTurnAngle(x + Tau);
    } else if x < Tau {
      WrapOfTurnAngle(x);
    } else {
      WrapTurns(x - Tau, 1);
      WrapOfTurnAngle(x - Tau);
    }
  }

  /** For a non-negative dividend JavaScript's `%` is the Euclidean remainder. */
  lemma RemTauOfNonNegative(a: real)
    requires a >= 0.0
    ensures RemTau(a) == Wrap(a)
  {
    FoldIsWrap(a);
  }

  /** Folding twice, `(x % 2π + 2π) % 2π`, is the Euclidean remainder as well. */
  lemma RemTauShifted(x: real)
    ensures RemTau(RemTau(x) + Tau) == Wrap(x)
  {
    var k := Trunc(x / Tau);
    assert RemTau(x) + Tau == x + ((1 - k) as real) * Tau;
    RemTauOfNonNegative(RemTau(x) + Tau);
    WrapTurns(x, 1 - k);
  }

  /** Subtracting a remainder is subtracting the angle itself, up to whole turns. */
  lemma WrapOfDifference(y: real, x: real)
    ensures Wrap(y - Wrap(x)) == Wrap(y - x)
  {
    var k := (x / Tau).Floor;
    assert y - Wrap(x) == (y - x) + (k as real) * Tau;
    WrapTurns(y - x, k);
  }

  /**
    * `getNormalizedAngle`: the wheel angle that `drawWheel` paints at 12 o'clock,
    * measured clockwise, for a wheel rotated by `currentAngle`.
    */
  function NormalizedAngle(currentAngle: real): (r: real)
    ensures 0.0 <= r < Tau
    ensures r == Wrap(-currentAngle)
  {
    FoldIsWrap(-currentAngle);
    Fold(-currentAngle)
  }

  /**
    * `normalizeAngleForDisplay`: the wheel angle that the read-backs of the
    * wheel (`spin`'s aim and `getCurrentPrizeByAngle`) take as the one on
    * show when the wheel is rotated by `angle`.
    */
  function NormalizeForDisplay(angle: real): (r: real)
    ensures 0.0 <= r < Tau
    ensures r == Wrap(-angle + Pi / 2.0)
  {
    FoldIsWrap(-angle + Pi / 2.0);
    Fold(-angle + Pi / 2.0)
  }
}

=== FILE: app.dfy ===
/**
  * The page controller of the grid lottery (lv_turntable/js/main.js): the
  * draw and claim handlers, the result panel, the keyboard shortcut and the
  * page-visibility handler, over one `GridLottery` and one `BubbleAnimation`.
  * The module globals of the page become the fields of `Controller`.
  */
module App {
  import opened JsMath
  import Grid
  import Bubbles

  /** The categories the result panel treats as a win. */
  const WinningTypes: set<string> := {"special", "first", "second", "third", "fourth", "unlucky", "very_unlucky"}

  /** `winningTypes.includes(prizeType)` */
  function IsWinning(bubbleType: string): (winning: bool)
    ensures winning <==> bubbleType in Bubbles.FixedMessageTypes || bubbleType == "fourth"
    ensures bubbleType == "thanks" || bubbleType == "again" || bubbleType == "hidden" ==> !winning
  {
    bubbleType in WinningTypes
  }

  /**
    * How the grid's outcomes split: every border cell is a win except the
    * two thank-you cells, the thank-you and replay categories are not wins,
    * and every winning cell's claim card carries a fixed message.
    */
  lemma GridOutcomesClassified(k: nat)
    requires k < 8
    ensures !IsWinning("thanks") && !IsWinning("again")
    ensures var p := Grid.Prizes[Grid.Order[k]];
      (IsWinning(p.bubbleType) <==> p.bubbleType != "thanks") &&
      (IsWinning(p.bubbleType) ==> p.bubbleType in Bubbles.FixedMessageTypes)
  {
  }

  /** The result line for a winning prize: the prize text between a fixed prefix and suffix. */
  function Congratulation(prizeText: string): (line: string)
    ensures |line| == |prizeText| + 6 && line[5..|line| - 1] == prizeText
  {
    "恭喜中奖：" + prizeText + "！"
  }

  /** The spin button's idle and busy labels. */
  const IdleLabel: string := "立即抽奖"
  const BusyLabel: string := "抽奖中..."

  /**
    * The page's own state, as one value: the `currentPrize` global, the
    * spin button, the result section, the claim button, and the count of
    * `reset` callbacks created so far.
    */
  datatype Page = Page(
    currentPrize: Option<Grid.PrizeInfo>, spinDisabled: bool, spinLabel: string,
    resultHidden: bool, claimShown: bool, resultText: string, resets: nat)

  /** What a Space/Enter key press did. */
  datatype KeyAction = Claimed | Drew | Ignored

  class Controller {
    const wheel: Grid.GridLottery
    const overlay: Bubbles.BubbleAnimation
    var currentPrize: Option<Grid.PrizeInfo>
    var spinDisabled: bool
    var spinLabel: string
    /** The result section carries the `hidden` class. */
    var resultHidden: bool
    /** The claim button is displayed (`display: block`). */
    var claimShown: bool
    var resultText: string
    /** How many `reset` callbacks `handleClaim` has created; tags the next one. */
    var resets: nat

    ghost predicate Valid()
      reads this, wheel, overlay
    {
      wheel.Valid() && overlay.Valid() &&
      (!resultHidden ==>
        !wheel.isSpinning && claimShown && currentPrize.Some? &&
        IsWinning(currentPrize.value.bubbleType) && resultText == Congratulation(currentPrize.value.text))
    }

    function PageState(): Page
      reads this
    {
      Page(currentPrize, spinDisabled, spinLabel, resultHidden, claimShown, resultText, resets)
    }

    /** `initializeApp`: a fresh grid and overlay, nothing drawn yet. */
    constructor ()
      ensures Valid() && fresh(wheel) && fresh(overlay)
      ensures currentPrize == None && resultHidden && !claimShown && !spinDisabled && spinLabel == IdleLabel
      ensures !wheel.isSpinning && !overlay.isAnimating
    {
      wheel := new Grid.GridLottery();
      overlay := new Bubbles.BubbleAnimation();
      currentPrize := None;
      spinDisabled, spinLabel := false, IdleLabel;
      resultHidden, claimShown, resultText := true, false, "";
      resets := 0;
    }

    /** `hideResult` */
    method HideResult()
      modifies this`resultHidden
      ensures resultHidden
    {
      resultHidden := true;
    }

    /**
      * `showResult`: a win shows the result line and the claim button and
      * keeps the spin button as it is; anything else hides both and
      * re-enables the spin button.
      */
    method ShowResult(prizeText: string, prizeType: string)
      modifies this`resultText, this`resultHidden, this`claimShown, this`spinDisabled, this`spinLabel
      ensures IsWinning(prizeType) ==>
        !resultHidden && claimShown && resultText == Congratulation(prizeText) &&
        spinDisabled == old(spinDisabled) && spinLabel == old(spinLabel)
      ensures !IsWinning(prizeType) ==>
        resultHidden && !claimShown && !spinDisabled && spinLabel == IdleLabel && resultText == old(resultText)
    {
      var isWinning := IsWinning(prizeType);
      if isWinning {
        resultText := Congratulation(prizeText);
        resultHidden := false;
        claimShown := true;
      } else {
        resultHidden := true;
        claimShown := false;
        spinDisabled := false;
        spinLabel := IdleLabel;
      }
    }

    /**
      * `handleSpin` up to its `await`, with the grid's two random draws
      * passed in: nothing while the grid runs; otherwise the result is hidden,
      * the spin button disabled and the grid started.
      */
    method HandleSpin(targetRand: real, loopsRand: real)
      requires Valid() && 0.0 <= targetRand < 1.0 && 0.0 <= loopsRand < 1.0
      modifies this, wheel
      ensures Valid()
      ensures old(wheel.isSpinning) ==> unchanged(this, wheel)
      ensures !old(wheel.isSpinning) ==>
        PageState() == old(PageState()).(resultHidden := true, spinDisabled := true, spinLabel := BusyLabel) &&
        wheel.isSpinning && wheel.step == 0 && wheel.current == -1 && wheel.active == old(wheel.active) &&
        wheel.targetIndex == UniformIndex(targetRand, |Grid.Order|) && wheel.loops == 3 + UniformIndex(loopsRand, 2) &&
        wheel.steps == Grid.TotalSteps(wheel.loops, wheel.targetIndex)
    {
      if wheel.isSpinning {
        return;
      }
      HideResult();
      spinDisabled := true;
      spinLabel := BusyLabel;
      var accepted, firstTick := wheel.Spin(targetRand, loopsRand);
    }

    /**
      * The grid's pending tick fires. When it ends the run, the rest of
      * `handleSpin` runs: the prize becomes `currentPrize` and is shown.
      */
    method WheelTick() returns (resolved: Option<Grid.PrizeInfo>)
      requires Valid() && wheel.isSpinning
      modifies this, wheel
      ensures Valid()
      ensures wheel.step == old(wheel.step) + 1 && wheel.steps == old(wheel.steps)
      ensures wheel.isSpinning <==> wheel.step < wheel.steps
      ensures wheel.isSpinning ==> resolved == None && PageState() == old(PageState())
      ensures !wheel.isSpinning ==>
        var prize := Grid.Prizes[Grid.Order[old(wheel.targetIndex)]];
        resolved == Some(prize) &&
        (IsWinning(prize.bubbleType) ==>
          PageState() == old(PageState()).(currentPrize := resolved, resultHidden := false, claimShown := true,
                                           resultText := Congratulation(prize.text))) &&
        (!IsWinning(prize.bubbleType) ==>
          PageState() == old(PageState()).(currentPrize := resolved, resultHidden := true, claimShown := false,
                                           spinDisabled := false, spinLabel := IdleLabel))
    {
      var outcome := wheel.Tick();
      if outcome.Resolved? {
        currentPrize := Some(outcome.prize);
        ShowResult(outcome.prize.text, outcome.prize.bubbleType);
        resolved := Some(outcome.prize);
      } else {
        resolved := None;
      }
    }

    /** The `reset` callback of `handleClaim`: the spin button is usable again. */
    method Reset()
      modifies this`spinDisabled, this`spinLabel
      ensures !spinDisabled && spinLabel == IdleLabel
    {
      spinDisabled := false;
      spinLabel := IdleLabel;
    }

    /**
      * `handleClaim`: nothing without a current prize or while the overlay
      * runs. Otherwise the result is hidden, the thank-you category gets the
      * 6-second burst and any other category the persistent claim card, both
      * with a fresh `reset` callback, and the spin button is re-enabled.
      */
    method HandleClaim()
      requires Valid()
      modifies this, overlay
      ensures Valid()
      ensures old(currentPrize).None? || old(overlay.isAnimating) ==> unchanged(this, overlay)
      ensures old(currentPrize).Some? && !old(overlay.isAnimating) ==>
        var prize := old(currentPrize).value;
        PageState() == old(PageState()).(resultHidden := true, spinDisabled := false, spinLabel := IdleLabel,
                                         resets := old(resets) + 1) &&
        overlay.isAnimating && overlay.onComplete == Some(Bubbles.Callback(old(resets))) &&
        (prize.bubbleType == "thanks" ==>
          overlay.bubbles == old(overlay.bubbles) && overlay.configs == old(overlay.configs) &&
          overlay.nextId == old(overlay.nextId) &&
          overlay.timers == old(overlay.timers) +
            Bubbles.BurstTimers(Bubbles.ThanksBurstConfig(old(overlay.configs)["thanks"])) + [Bubbles.StopAfter(6000)]) &&
        (prize.bubbleType != "thanks" ==>
          var key := Bubbles.ConfigKey(old(overlay.configs), prize.bubbleType);
          var message := Bubbles.PrizeMessage(prize.bubbleType, old(currentPrize));
          overlay.timers == old(overlay.timers) && overlay.nextId == old(overlay.nextId) + 1 &&
          overlay.configs == old(overlay.configs)[key := old(overlay.configs)[key].(content := [message], size := Bubbles.Range(80.0, 120.0))] &&
          overlay.bubbles == old(overlay.bubbles) + [Bubbles.Fixed(old(overlay.nextId), message)])
    {
      if currentPrize.None? || overlay.IsRunning() {
        return;
      }
      HideResult();
      var reset := Bubbles.Callback(resets);
      resets := resets + 1;
      if currentPrize.value.bubbleType == "thanks" {
        overlay.Start("thanks", 6000, Some(reset), currentPrize);
      } else {
        overlay.Start(currentPrize.value.bubbleType, 0, Some(reset), currentPrize);
      }
      spinDisabled := false;
      spinLabel := IdleLabel;
    }

    /** Runs the callback the overlay handed back, if any (only `reset` exists). */
    method RunCompletion(fired: Option<Bubbles.Callback>)
      modifies this`spinDisabled, this`spinLabel
      ensures fired.Some? ==> !spinDisabled && spinLabel == IdleLabel
      ensures fired.None? ==> spinDisabled == old(spinDisabled) && spinLabel == old(spinLabel)
    {
      if fired.Some? {
        Reset();
      }
    }

    /**
      * A dismissal of the overlay: a click on its backdrop or on the claim
      * card's close button, both of which call `stop`.
      */
    method DismissOverlay()
      requires Valid()
      modifies this, overlay
      ensures Valid() && !overlay.isAnimating && overlay.bubbles == [] && overlay.onComplete == None
      ensures overlay.timers == old(overlay.timers) && overlay.configs == old(overlay.configs) &&
        overlay.nextId == old(overlay.nextId)
      ensures old(overlay.onComplete).Some? ==>
        PageState() == old(PageState()).(spinDisabled := false, spinLabel := IdleLabel)
      ensures old(overlay.onComplete).None? ==> PageState() == old(PageState())
    {
      var fired := overlay.Stop();
      RunCompletion(fired);
    }

    /** One of the overlay's pending timers fires, with the draws a new bubble needs. */
    method OverlayTimer(k: nat, sizeRand: real, colorRand: real, contentRand: real, speedRand: real)
      requires Valid() && k < |overlay.timers|
      requires 0.0 <= sizeRand < 1.0 && 0.0 <= colorRand < 1.0 && 0.0 <= contentRand < 1.0 && 0.0 <= speedRand < 1.0
      modifies this, overlay
      ensures Valid()
      ensures overlay.timers == old(overlay.timers[..k] + overlay.timers[k + 1..]) &&
        overlay.configs == old(overlay.configs)
      ensures old(overlay.timers[k]).StopAfter? ==>
        !overlay.isAnimating && overlay.bubbles == [] && overlay.onComplete == None &&
        overlay.nextId == old(overlay.nextId)
      ensures old(overlay.timers[k]).StopAfter? && old(overlay.onComplete).Some? ==>
        PageState() == old(PageState()).(spinDisabled := false, spinLabel := IdleLabel)
      ensures old(overlay.timers[k]).StopAfter? && old(overlay.onComplete).None? ==> PageState() == old(PageState())
      ensures old(overlay.timers[k]).CreateBubbleAfter? ==>
        PageState() == old(PageState()) &&
        overlay.isAnimating == old(overlay.isAnimating) && overlay.onComplete == old(overlay.onComplete) &&
        |overlay.bubbles| == |old(overlay.bubbles)| + 1 && overlay.bubbles[..|old(overlay.bubbles)|] == old(overlay.bubbles) &&
        overlay.nextId == old(overlay.nextId) + 1 &&
        Bubbles.DrawnFrom(overlay.bubbles[|old(overlay.bubbles)|], old(overlay.nextId), old(overlay.timers[k]).config)
    {
      var fired := overlay.FireTimer(k, sizeRand, colorRand, contentRand, speedRand);
      RunCompletion(fired);
    }

    /**
      * The `keydown` listener: Space or Enter claims while the result is
      * shown, draws while it is hidden and the grid is idle, and is ignored
      * otherwise, as is every other key.
      */
    method KeyDown(code: string, targetRand: real, loopsRand: real) returns (action: KeyAction)
      requires Valid() && 0.0 <= targetRand < 1.0 && 0.0 <= loopsRand < 1.0
      modifies this, wheel, overlay
      ensures Valid()
      ensures code != "Space" && code != "Enter" ==> action == Ignored
      ensures !old(resultHidden) ==> action != Drew
      ensures action == Claimed <==> (code == "Space" || code == "Enter") && !old(resultHidden)
      ensures action == Drew <==> (code == "Space" || code == "Enter") && old(resultHidden) && !old(wheel.isSpinning)
      ensures action == Claimed && old(overlay.isAnimating) ==> unchanged(this, wheel, overlay)
      ensures action == Claimed && !old(overlay.isAnimating) ==>
        unchanged(wheel) && currentPrize.Some? &&
        PageState() == old(PageState()).(resultHidden := true, spinDisabled := false, spinLabel := IdleLabel,
                                         resets := old(resets) + 1) &&
        overlay.isAnimating && overlay.onComplete == Some(Bubbles.Callback(old(resets)))
      ensures action == Drew ==>
        unchanged(overlay) &&
        PageState() == old(PageState()).(resultHidden := true, spinDisabled := true, spinLabel := BusyLabel) &&
        wheel.isSpinning && wheel.step == 0 && wheel.current == -1 &&
        wheel.targetIndex == UniformIndex(targetRand, |Grid.Order|) && wheel.loops == 3 + UniformIndex(loopsRand, 2)
      ensures action == Ignored ==> unchanged(this, wheel, overlay)
    {
      action := Ignored;
      if code == "Space" || code == "Enter" {
        if !resultHidden {
          HandleClaim();
          action := Claimed;
        } else if !wheel.isSpinning {
          HandleSpin(targetRand, loopsRand);
          action := Drew;
        }
      }
    }

    /** The `visibilitychange` listener: a hidden page stops a running overlay. */
    method VisibilityChange(hidden: bool)
      requires Valid()
      modifies this, overlay
      ensures Valid()
      ensures hidden ==> !overlay.isAnimating
      ensures hidden && old(overlay.isAnimating) ==>
        overlay.bubbles == [] && overlay.onComplete == None &&
        overlay.timers == old(overlay.timers) && overlay.configs == old(overlay.configs) &&
        overlay.nextId == old(overlay.nextId)
      ensures hidden && old(overlay.isAnimating) && old(overlay.onComplete).Some? ==>
        PageState() == old(PageState()).(spinDisabled := false, spinLabel := IdleLabel)
      ensures hidden && old(overlay.isAnimating) && old(overlay.onComplete).None? ==> PageState() == old(PageState())
      ensures !hidden || !old(overlay.isAnimating) ==> unchanged(this, overlay)
    {
      if hidden && overlay.IsRunning() {
        var fired := overlay.Stop();
        RunCompletion(fired);
      }
    }
  }
}

=== FILE: bubbles.dfy ===
/**
  * The reveal overlay `BubbleAnimation` (lv_turntable/js/bubbles.js): a
  * full-screen layer that either shows one persistent "claim card" bubble or,
  * for the thank-you category, a timed burst of floating bubbles, and that
  * runs a one-shot completion callback when it stops.
  *
  * DOM elements are modelled by their identity (`id`); the timers the overlay
  * sets are kept in `timers` until the environment fires them.
  */
module Bubbles {
  import opened JsMath
  import Grid

  datatype Range = Range(min: real, max: real)

  /** One entry of `bubbleConfigs`. */
  datatype BubbleConfig = BubbleConfig(colors: seq<string>, content: seq<string>, size: Range, speed: Range)

  /** The categories `bubbleConfigs` has an entry for. */
  const ConfigKeys: set<string> := {"hidden", "special", "first", "second", "third", "fourth", "thanks", "again"}

  /** `bubbleConfigs` as the constructor installs it. */
  function DefaultConfigs(): (configs: map<string, BubbleConfig>)
    ensures configs.Keys == ConfigKeys
  {
    map[
      "hidden" := BubbleConfig(["#e74c3c", "#c0392b", "#e67e22"], ["隐藏大奖", "神秘礼包", "超级幸运"], Range(50.0, 110.0), Range(1.0, 3.0)),
      "special" := BubbleConfig(["#ff6b6b", "#ff8e8e", "#ffb3b3"], ["xxx", "特等奖", "恭喜"], Range(40.0, 100.0), Range(2.0, 4.0)),
      "first" := BubbleConfig(["#4ecdc4", "#45b7aa", "#3d9b8f"], ["xxx", "一等奖", "太棒了"], Range(35.0, 90.0), Range(1.5, 3.5)),
      "second" := BubbleConfig(["#96ceb4", "#81c784", "#66bb6a"], ["xxx", "二等奖", "不错哦"], Range(30.0, 80.0), Range(1.8, 3.8)),
      "third" := BubbleConfig(["#feca57", "#ffb74d", "#ffa726"], ["xxx", "三等奖", "很好"], Range(25.0, 70.0), Range(2.0, 4.0)),
      "fourth" := BubbleConfig(["#48dbfb", "#42a5f5", "#2196f3"], ["xxx", "四等奖", "不错"], Range(20.0, 60.0), Range(2.2, 4.2)),
      "thanks" := BubbleConfig(["#636e72", "#78909c", "#90a4ae"], ["xxx", "谢谢", "参与"], Range(20.0, 50.0), Range(2.5, 4.5)),
      "again" := BubbleConfig(["#00b894", "#26a69a", "#00897b"], ["xxx", "再来", "一次"], Range(30.0, 70.0), Range(2.0, 4.0))
    ]
  }

  /**
    * `getBubbleConfig`'s key: the category's own entry when there is one,
    * the `special` entry otherwise.
    */
  function ConfigKey(configs: map<string, BubbleConfig>, bubbleType: string): (key: string)
    ensures bubbleType in configs ==> key == bubbleType
    ensures bubbleType !in configs ==> key == "special"
    ensures "special" in configs ==> key in configs
  {
    if bubbleType in configs then bubbleType else "special"
  }

  /** `getBubbleConfig`: a total lookup over a table that has a `special` entry. */
  function GetBubbleConfig(configs: map<string, BubbleConfig>, bubbleType: string): (config: BubbleConfig)
    requires "special" in configs
    ensures config in configs.Values
    ensures bubbleType in configs ==> config == configs[bubbleType]
    ensures bubbleType !in configs ==> config == configs["special"]
  {
    configs[ConfigKey(configs, bubbleType)]
  }

  /** Every category, known or not, finds an entry of the default table. */
  lemma DefaultLookupIsTotal(bubbleType: string)
    ensures ConfigKey(DefaultConfigs(), bubbleType) in ConfigKeys
    ensures bubbleType in ConfigKeys ==> GetBubbleConfig(DefaultConfigs(), bubbleType) == DefaultConfigs()[bubbleType]
    ensures bubbleType !in ConfigKeys ==> GetBubbleConfig(DefaultConfigs(), bubbleType) == DefaultConfigs()["special"]
  {
  }

  /** The categories with a fixed claim message. */
  const FixedMessageTypes: set<string> := {"special", "first", "second", "third", "unlucky", "very_unlucky"}

  /**
    * `getPrizeMessage`: a fixed message per prize category; any other
    * category describes the current prize (`window.currentPrize`), or an
    * unknown prize when there is none.
    */
  function PrizeMessage(bubbleType: string, currentPrize: Option<Grid.PrizeInfo>): (message: string)
    ensures bubbleType == "special" ==> message == "lv的iphone15 pro （95新）"
    ensures bubbleType == "first" ==> message == "lv每日早安一周"
    ensures bubbleType == "second" ==> message == "lv三角洲陪玩3天"
    ensures bubbleType == "third" ==> message == "没想好 待定"
    ensures bubbleType == "unlucky" ==> message == "lv每日要饭（3天）"
    ensures bubbleType == "very_unlucky" ==> message == "lv写真一套"
    ensures bubbleType !in FixedMessageTypes && currentPrize.Some? ==>
      message == currentPrize.value.text + "奖的奖品是" + currentPrize.value.prize
    ensures bubbleType !in FixedMessageTypes && currentPrize.None? ==> message == "未知奖品奖的奖品是神秘奖品"
  {
    match bubbleType
    case "special" => "lv的iphone15 pro （95新）"
    case "first" => "lv每日早安一周"
    case "second" => "lv三角洲陪玩3天"
    case "third" => "没想好 待定"
    case "unlucky" => "lv每日要饭（3天）"
    case "very_unlucky" => "lv写真一套"
    case _ =>
      var prizeName := if currentPrize.Some? then currentPrize.value.text else "未知奖品";
      var prizeDesc := if currentPrize.Some? then currentPrize.value.prize else "神秘奖品";
      prizeName + "奖的奖品是" + prizeDesc
  }

  /** A fixed-category message does not depend on the current prize. */
  lemma FixedMessageIgnoresPrize(bubbleType: string, p: Option<Grid.PrizeInfo>, q: Option<Grid.PrizeInfo>)
    requires bubbleType in FixedMessageTypes
    ensures PrizeMessage(bubbleType, p) == PrizeMessage(bubbleType, q)
  {
  }

  /** Different fixed categories get different claim messages, so a claim card names its prize. */
  lemma FixedMessagesDistinct(a: string, b: string, p: Option<Grid.PrizeInfo>)
    requires a in FixedMessageTypes && b in FixedMessageTypes && a != b
    ensures PrizeMessage(a, p) != PrizeMessage(b, p)
  {
  }

  /** The copy of the `thanks` entry the thank-you burst floats. */
  function ThanksBurstConfig(thanks: BubbleConfig): (config: BubbleConfig)
    ensures config.colors == thanks.colors
    ensures config.content == ["算你运气好"] && config.size == Range(40.0, 80.0) && config.speed == Range(5.0, 7.0)
  {
    thanks.(content := ["算你运气好"], size := Range(40.0, 80.0), speed := Range(5.0, 7.0))
  }

  /** An opaque completion callback handed to `start`, told apart by its tag. */
  datatype Callback = Callback(tag: nat)

  /** A bubble element: the persistent claim card, or one floating bubble. */
  datatype Bubble =
    | Fixed(id: nat, text: string)
    | Floating(id: nat, caption: Option<string>, color: Option<string>, size: real, seconds: real)

  /**
    * A floating bubble with identity `id` whose caption, colour, size and
    * duration are drawn from `config` (each when the config offers a choice).
    */
  predicate DrawnFrom(b: Bubble, id: nat, config: BubbleConfig)
  {
    b.Floating? && b.id == id &&
    (|config.content| > 0 ==> b.caption.Some? && b.caption.value in config.content) &&
    (|config.colors| > 0 ==> b.color.Some? && b.color.value in config.colors) &&
    (config.size.min <= config.size.max ==> config.size.min <= b.size <= config.size.max) &&
    (config.speed.min <= config.speed.max ==> config.speed.min <= b.seconds <= config.speed.max)
  }

  /** A pending `setTimeout` of the overlay, with its delay in milliseconds. */
  datatype Timer = StopAfter(delay: int) | CreateBubbleAfter(delay: int, config: BubbleConfig)

  /** The number of bubbles in the thank-you burst. */
  const BurstCount: nat := 36

  /** The timers `createThanksBurst` sets: bubble `i` after `i * 120` ms. */
  function BurstTimers(config: BubbleConfig): seq<Timer>
  {
    seq(BurstCount, i requires 0 <= i < BurstCount => CreateBubbleAfter(i * 120, config))
  }

  /** The burst is 36 bubbles, 120 ms apart, all launched before the default 6000 ms stop. */
  lemma BurstBeforeDefaultStop(config: BubbleConfig)
    ensures |BurstTimers(config)| == 36
    ensures forall i :: 0 <= i < 36 ==> BurstTimers(config)[i].CreateBubbleAfter? && BurstTimers(config)[i].config == config
    ensures forall i, j :: 0 <= i < j < 36 ==> BurstTimers(config)[i].delay < BurstTimers(config)[j].delay < 6000
  {
  }

  /** `Math.random() * (max - min) + min` */
  function RandomBetween(rand: real, range: Range): (x: real)
    requires 0.0 <= rand < 1.0
    ensures range.min <= range.max ==> range.min <= x <= range.max
  {
    var d := range.max - range.min;
    assert d >= 0.0 ==> 0.0 <= rand * d <= d;
    rand * d + range.min
  }

  /** `xs[Math.floor(Math.random() * xs.length)]`; `None` is `undefined` on an empty list. */
  function Pick(xs: seq<string>, rand: real): (x: Option<string>)
    requires 0.0 <= rand < 1.0
    ensures x.Some? <==> |xs| > 0
    ensures x.Some? ==> x.value in xs
  {
    if |xs| == 0 then None else Some(xs[UniformIndex(rand, |xs|)])
  }

  /** Position of the first bubble with identity `id`, or -1 (`indexOf`). */
  function IndexOf(bs: seq<Bubble>, id: nat): (i: int)
    ensures -1 <= i < |bs|
    ensures i >= 0 ==> bs[i].id == id && forall j :: 0 <= j < i ==> bs[j].id != id
    ensures i == -1 ==> forall j :: 0 <= j < |bs| ==> bs[j].id != id
  {
    if bs == [] then -1
    else if bs[0].id == id then 0
    else
      var i := IndexOf(bs[1..], id);
      if i == -1 then -1 else i + 1
  }

  /** The list without the bubbles of identity `id`, order kept: the reference for the splice. */
  function Without(bs: seq<Bubble>, id: nat): seq<Bubble>
  {
    if bs == [] then []
    else (if bs[0].id == id then [] else [bs[0]]) + Without(bs[1..], id)
  }

  predicate DistinctIds(bs: seq<Bubble>)
  {
    forall i, j :: 0 <= i < j < |bs| ==> bs[i].id != bs[j].id
  }

  /** Without a bubble of that identity, the list is its own filter. */
  lemma {:induction false} WithoutAbsent(bs: seq<Bubble>, id: nat)
    requires forall j :: 0 <= j < |bs| ==> bs[j].id != id
    ensures Without(bs, id) == bs
  {
    if bs != [] {
      WithoutAbsent(bs[1..], id);
      assert [bs[0]] + bs[1..] == bs;
    }
  }

  /**
    * With distinct identities, splicing out the element `indexOf` finds
    * removes exactly that bubble and keeps every other one in order.
    */
  lemma {:induction false} SpliceIsWithout(bs: seq<Bubble>, id: nat)
    requires DistinctIds(bs)
    ensures IndexOf(bs, id) >= 0 ==>
      bs[..IndexOf(bs, id)] + bs[IndexOf(bs, id) + 1..] == Without(bs, id)
    ensures IndexOf(bs, id) == -1 ==> bs == Without(bs, id)
    decreases |bs|, 1
  {
    if bs == [] {
      return;
    }
    if bs[0].id == id {
      WithoutHead(bs, id);
      assert bs[..0] + bs[1..] == bs[1..];
    } else {
      SpliceBehindOther(bs, id);
    }
  }

  /** The inductive step of `SpliceIsWithout`, when the head has another identity. */
  lemma {:induction false} SpliceBehindOther(bs: seq<Bubble>, id: nat)
    requires DistinctIds(bs) && bs != [] && bs[0].id != id
    ensures IndexOf(bs, id) >= 0 ==>
      bs[..IndexOf(bs, id)] + bs[IndexOf(bs, id) + 1..] == Without(bs, id)
    ensures IndexOf(bs, id) == -1 ==> bs == Without(bs, id)
    decreases |bs|, 0
  {
    var rest := bs[1..];
    DistinctTail(bs);
    SpliceIsWithout(rest, id);
    var w := Without(rest, id);
    assert Without(bs, id) == [bs[0]] + w;
    var i := IndexOf(rest, id);
    if i >= 0 {
      assert IndexOf(bs, id) == i + 1;
      assert rest[..i] + rest[i + 1..] == w;
      SpliceBehindHead(bs, i);
    } else {
      assert IndexOf(bs, id) == -1;
      assert rest == w;
      assert bs == [bs[0]] + rest;
    }
  }

  /** Splicing out position `i + 1` is keeping the head and splicing out `i` from the tail. */
  lemma SpliceBehindHead(bs: seq<Bubble>, i: nat)
    requires i + 1 < |bs|
    ensures bs[..i + 1] + bs[i + 2..] == [bs[0]] + (bs[1..][..i] + bs[1..][i + 1..])
  {
    var rest := bs[1..];
    assert bs[..i + 1] == [bs[0]] + rest[..i];
    assert bs[i + 2..] == rest[i + 1..];
  }


  /** The tail of a list with distinct identities has distinct identities. */
  lemma DistinctTail(bs: seq<Bubble>)
    requires bs != [] && DistinctIds(bs)
    ensures DistinctIds(bs[1..])
  {
    var rest := bs[1..];
    forall j, k | 0 <= j < k < |rest|
      ensures rest[j].id != rest[k].id
    {
      assert rest[j] == bs[j + 1] && rest[k] == bs[k + 1];
    }
  }

  /** When the first bubble has the identity, and identities are distinct, the filter drops just the head. */
  lemma WithoutHead(bs: seq<Bubble>, id: nat)
    requires bs != [] && DistinctIds(bs) && bs[0].id == id
    ensures Without(bs, id) == bs[1..]
  {
    var rest := bs[1..];
    forall j | 0 <= j < |rest|
      ensures rest[j].id != id
    {
      assert rest[j] == bs[j + 1];
    }
    WithoutAbsent(rest, id);
  }

  class BubbleAnimation {
    var isAnimating: bool
    /** The container is on screen (class `show`, not `hidden`). */
    var shown: bool
    var bubbles: seq<Bubble>
    var onComplete: Option<Callback>
    var configs: map<string, BubbleConfig>
    /** Timers set by the overlay that have not fired yet; stopping does not clear them. */
    var timers: seq<Timer>
    /** The identity the next bubble element gets. */
    var nextId: nat

    ghost predicate Valid()
      reads this
    {
      configs.Keys == ConfigKeys &&
      shown == isAnimating &&
      (!isAnimating ==> onComplete == None) &&
      DistinctIds(bubbles) &&
      (forall i :: 0 <= i < |bubbles| ==> bubbles[i].id < nextId) &&
      (forall i :: 0 <= i < |bubbles| && bubbles[i].Fixed? ==> isAnimating) &&
      (forall i, j :: 0 <= i < j < |bubbles| ==> !(bubbles[i].Fixed? && bubbles[j].Fixed?))
    }

    /** The overlay at rest: hidden, empty, no callback, the default configs. */
    constructor ()
      ensures Valid() && !isAnimating && bubbles == [] && timers == [] && configs == DefaultConfigs()
    {
      isAnimating, shown := false, false;
      bubbles, onComplete := [], None;
      configs := DefaultConfigs();
      timers, nextId := [], 0;
    }

    /** `isRunning` */
    function IsRunning(): (running: bool)
      reads this
      ensures Valid() ==> (running <==> shown)
      ensures Valid() && !running ==> onComplete == None && forall i :: 0 <= i < |bubbles| ==> !bubbles[i].Fixed?
    {
      isAnimating
    }

    /**
      * `start`. While an animation runs it does nothing. Otherwise it stores
      * the callback and shows the overlay; the thank-you category sets a burst
      * of 36 bubbles on a copy of its entry and a stop after `duration` (6000
      * ms when `duration <= 0`); any other category overwrites its entry (the
      * `special` one for unknown categories) with the claim message, shows one
      * claim card, and sets a stop only when `duration > 0`.
      */
    method Start(bubbleType: string, duration: int, onComplete: Option<Callback>, currentPrize: Option<Grid.PrizeInfo>)
      requires Valid()
      modifies this
      ensures Valid()
      ensures old(isAnimating) ==>
        isAnimating && this.onComplete == old(this.onComplete) && bubbles == old(bubbles) &&
        configs == old(configs) && timers == old(timers) && nextId == old(nextId)
      ensures !old(isAnimating) ==> isAnimating && shown && this.onComplete == onComplete
      ensures !old(isAnimating) && bubbleType == "thanks" ==>
        configs == old(configs) && bubbles == old(bubbles) && nextId == old(nextId) &&
        timers == old(timers) + BurstTimers(ThanksBurstConfig(old(configs)["thanks"])) +
                  [StopAfter(if duration > 0 then duration else 6000)]
      ensures !old(isAnimating) && bubbleType != "thanks" ==>
        var key := ConfigKey(old(configs), bubbleType);
        var message := PrizeMessage(bubbleType, currentPrize);
        configs == old(configs)[key := old(configs)[key].(content := [message], size := Range(80.0, 120.0))] &&
        bubbles == old(bubbles) + [Fixed(old(nextId), message)] && nextId == old(nextId) + 1 &&
        timers == old(timers) + (if duration > 0 then [StopAfter(duration)] else [])
    {
      if isAnimating {
        return;
      }
      this.onComplete := onComplete;
      isAnimating := true;
      shown := true;
      if bubbleType == "thanks" {
        var config := ThanksBurstConfig(configs["thanks"]);
        CreateThanksBurst(config);
        var runMs := if duration > 0 then duration else 6000;
        timers := timers + [StopAfter(runMs)];
        return;
      }
      var key := ConfigKey(configs, bubbleType);
      var message := PrizeMessage(bubbleType, currentPrize);
      configs := configs[key := configs[key].(content := [message], size := Range(80.0, 120.0))];
      CreateFixedBubble(message);
      if duration > 0 {
        timers := timers + [StopAfter(duration)];
      }
    }

    /** `createThanksBurst`: one bubble timer every 120 ms, 36 in all. */
    method CreateThanksBurst(config: BubbleConfig)
      modifies this`timers
      ensures timers == old(timers) + BurstTimers(config)
    {
      var i := 0;
      while i < BurstCount
        invariant 0 <= i <= BurstCount
        invariant timers == old(timers) + BurstTimers(config)[..i]
      {
        assert BurstTimers(config)[..i + 1] == BurstTimers(config)[..i] + [CreateBubbleAfter(i * 120, config)];
        timers := timers + [CreateBubbleAfter(i * 120, config)];
        i := i + 1;
      }
      assert BurstTimers(config)[..BurstCount] == BurstTimers(config);
    }

    /** `createFixedBubble`: appends the claim card, a new element, to the list. */
    method CreateFixedBubble(content: string)
      requires Valid() && isAnimating && forall i :: 0 <= i < |bubbles| ==> !bubbles[i].Fixed?
      modifies this`bubbles, this`nextId
      ensures Valid()
      ensures bubbles == old(bubbles) + [Fixed(old(nextId), content)] && nextId == old(nextId) + 1
    {
      bubbles := bubbles + [Fixed(nextId, content)];
      nextId := nextId + 1;
    }

    /**
      * `createBubble`, with the four `Math.random()` draws for size, colour,
      * text and speed passed in: appends one new floating bubble drawn from
      * `config`.
      */
    method CreateBubble(config: BubbleConfig, sizeRand: real, colorRand: real, contentRand: real, speedRand: real)
      requires Valid()
      requires 0.0 <= sizeRand < 1.0 && 0.0 <= colorRand < 1.0 && 0.0 <= contentRand < 1.0 && 0.0 <= speedRand < 1.0
      modifies this`bubbles, this`nextId
      ensures Valid() && nextId == old(nextId) + 1 && |bubbles| == |old(bubbles)| + 1
      ensures bubbles[..|old(bubbles)|] == old(bubbles)
      ensures DrawnFrom(bubbles[|old(bubbles)|], old(nextId), config)
    {
      var size := RandomBetween(sizeRand, config.size);
      var color := Pick(config.colors, colorRand);
      var content := Pick(config.content, contentRand);
      var seconds := RandomBetween(speedRand, config.speed);
      bubbles := bubbles + [Floating(nextId, content, color, size, seconds)];
      nextId := nextId + 1;
    }

    /**
      * `stop`: hides the overlay, drops every bubble, and hands back the
      * stored callback for the caller to run, clearing it first so that it
      * fires at most once. Pending timers are left in place.
      */
    method Stop() returns (fired: Option<Callback>)
      requires Valid()
      modifies this
      ensures Valid()
      ensures !isAnimating && !shown && bubbles == [] && onComplete == None
      ensures fired == old(onComplete)
      ensures configs == old(configs) && timers == old(timers) && nextId == old(nextId)
    {
      isAnimating := false;
      bubbles := [];
      shown := false;
      fired := onComplete;
      onComplete := None;
    }

    /**
      * The `animationend` listener of a floating bubble (the claim card has
      * none): removes that bubble from the list if it is still there; the
      * others keep their order.
      */
    method OnAnimationEnd(id: nat)
      requires Valid()
      requires forall i :: 0 <= i < |bubbles| && bubbles[i].id == id ==> bubbles[i].Floating?
      modifies this`bubbles
      ensures Valid()
      ensures bubbles == Without(old(bubbles), id)
    {
      var index := IndexOf(bubbles, id);
      SpliceIsWithout(bubbles, id);
      if index > -1 {
        var rest := bubbles[..index] + bubbles[index + 1..];
        assert forall j :: 0 <= j < |rest| ==> rest[j] == bubbles[if j < index then j else j + 1];
        bubbles := rest;
      }
    }

    /**
      * The environment fires pending timer `k`: a stop timer runs `stop`
      * (whichever animation is showing by then), a burst timer creates its
      * bubble.
      */
    method FireTimer(k: nat, sizeRand: real, colorRand: real, contentRand: real, speedRand: real)
      returns (fired: Option<Callback>)
      requires Valid() && k < |timers|
      requires 0.0 <= sizeRand < 1.0 && 0.0 <= colorRand < 1.0 && 0.0 <= contentRand < 1.0 && 0.0 <= speedRand < 1.0
      modifies this
      ensures Valid() && timers == old(timers[..k] + timers[k + 1..]) && configs == old(configs)
      ensures old(timers[k]).StopAfter? ==>
        fired == old(onComplete) && !isAnimating && bubbles == [] && onComplete == None && nextId == old(nextId)
      ensures old(timers[k]).CreateBubbleAfter? ==>
        fired == None && isAnimating == old(isAnimating) && onComplete == old(onComplete) &&
        |bubbles| == |old(bubbles)| + 1 && bubbles[..|old(bubbles)|] == old(bubbles) &&
        nextId == old(nextId) + 1 && DrawnFrom(bubbles[|old(bubbles)|], old(nextId), old(timers[k]).config)
    {
      var timer := timers[k];
      timers := timers[..k] + timers[k + 1..];
      match timer
      case StopAfter(_) =>
        fired := Stop();
      case CreateBubbleAfter(_, config) =>
        CreateBubble(config, sizeRand, colorRand, contentRand, speedRand);
        fired := None;
    }
  }

  /**
    * Dismissing twice fires the callback once: a claim card closed with its
    * button and then by a click on the backdrop.
    */
  method DismissTwice() returns (first: Option<Callback>, second: Option<Callback>)
    ensures first == Some(Callback(0)) && second == None
  {
    var overlay := new BubbleAnimation();
    overlay.Start("first", 0, Some(Callback(0)), None);
    first := overlay.Stop();
    second := overlay.Stop();
  }

  /**
    * A thank-you run dismissed early leaves its stop timer pending; when it
    * fires it ends the claim card shown after it and runs that card's
    * callback.
    */
  method StaleStopEndsLaterCard() returns (fired: Option<Callback>, stillShown: bool)
    ensures fired == Some(Callback(1)) && !stillShown
  {
    var overlay := new BubbleAnimation();
    overlay.Start("thanks", 6000, Some(Callback(0)), None);
    var early := overlay.Stop();
    overlay.Start("first", 0, Some(Callback(1)), None);
    assert overlay.timers[BurstCount] == StopAfter(6000);
    fired := overlay.FireTimer(BurstCount, 0.0, 0.0, 0.0, 0.0);
    stillShown := overlay.IsRunning();
  }
}

=== FILE: grid.dfy ===
/**
  * The sequential grid lottery `GridLottery` (lv_turntable/js/grid.js): a
  * highlight runs round the eight border cells of a 3×3 grid, slowing down,
  * and stops on a cell chosen before the run starts.
  */
module Grid {
  import opened JsMath

  /** A cell's prize: its label, its category (`bubbleType`) and the prize text. */
  datatype PrizeInfo = PrizeInfo(text: string, bubbleType: string, prize: string)

  /** The nine cells, row by row; cell 4 is the centre (the draw button). */
  const Prizes: seq<PrizeInfo> :=
    [ PrizeInfo("谢谢惠顾", "thanks", "谢谢参与"),
      PrizeInfo("特等奖", "special", "特等奖"),
      PrizeInfo("很不幸奖", "very_unlucky", "很不幸奖"),
      PrizeInfo("不幸奖", "unlucky", "不幸奖"),
      PrizeInfo("抽奖", "special", "抽奖按钮"),
      PrizeInfo("二等奖", "second", "二等奖"),
      PrizeInfo("谢谢惠顾", "thanks", "谢谢参与"),
      PrizeInfo("参与奖", "third", "参与奖"),
      PrizeInfo("一等奖", "first", "一等奖") ]

  const CentreCell: nat := 4

  /** The wait before the first tick of a run, in milliseconds. */
  const FirstTickDelay: real := 100.0

  /** The traversal order: the border cells clockwise from the top-left corner. */
  const Order: seq<nat> := [0, 1, 2, 5, 8, 7, 6, 3]

  /** Cells sharing a side in the 3×3 grid. */
  predicate Adjacent(a: nat, b: nat)
  {
    var dr, dc := a / 3 - b / 3, a % 3 - b % 3;
    (dr == 0 && (dc == 1 || dc == -1)) || (dc == 0 && (dr == 1 || dr == -1))
  }

  /** The order visits eight different cells of the grid and never the centre. */
  lemma OrderCoversBorder()
    ensures |Order| == 8 && |Prizes| == 9
    ensures forall k :: 0 <= k < 8 ==> Order[k] < 9 && Order[k] != CentreCell
    ensures forall k, l :: 0 <= k < l < 8 ==> Order[k] != Order[l]
  {
  }

  /** The order is a ring: each cell is next to the one before it, the last next to the first. */
  lemma OrderIsRing()
    ensures forall k, l :: 0 <= k < 8 && l == (k + 1) % 8 ==> Adjacent(Order[k], Order[l])
  {
    forall k, l | 0 <= k < 8 && l == (k + 1) % 8
      ensures Adjacent(Order[k], Order[l])
    {
      if k == 7 {
        assert Adjacent(3, 0);
      } else {
        assert l == k + 1;
        assert Adjacent(0, 1) && Adjacent(1, 2) && Adjacent(2, 5) && Adjacent(5, 8);
        assert Adjacent(8, 7) && Adjacent(7, 6) && Adjacent(6, 3);
      }
    }
  }

  /** `getIcon`: the centre's label wins, then the category, then a default sparkle. */
  function Icon(bubbleType: string, text: string): (icon: string)
    ensures text == "抽奖" ==> icon == "🎯"
    ensures icon == "✨" <==>
      text != "抽奖" && bubbleType !in {"special", "first", "second", "third", "thanks", "unlucky", "very_unlucky"}
  {
    if text == "抽奖" then "🎯"
    else match bubbleType
      case "special" => "🎁"
      case "first" => "🥇"
      case "second" => "🥈"
      case "third" => "🥉"
      case "thanks" => "🍀"
      case "unlucky" => "🪙"
      case "very_unlucky" => "📸"
      case _ => "✨"
  }

  /** Every cell of the grid gets a category icon; only the centre gets the target. */
  lemma EveryCellHasIcon(i: nat)
    requires i < 9
    ensures Icon(Prizes[i].bubbleType, Prizes[i].text) != "✨"
    ensures Icon(Prizes[i].bubbleType, Prizes[i].text) == "🎯" <==> i == CentreCell
  {
  }

  /**
    * `steps = loops * order.length + targetIndex + 1`: with 3 or 4 loops the
    * run covers more than three full rounds, and its last step lands on
    * traversal position `targetIndex`.
    */
  function TotalSteps(loops: nat, targetIndex: nat): (steps: nat)
    ensures 3 <= loops <= 4 && targetIndex < 8 ==> 25 <= steps <= 40 && steps > 3 * |Order|
    ensures (steps - 1) % 8 == targetIndex % 8
  {
    loops * |Order| + targetIndex + 1
  }

  /** The last step of a run lands on the target position, a border cell. */
  lemma LastStepLandsOnTarget(loops: nat, targetIndex: nat)
    requires targetIndex < 8
    ensures CurrentAfter(TotalSteps(loops, targetIndex)) == targetIndex
    ensures Order[targetIndex] < 9 == |Prizes| && Order[targetIndex] != CentreCell
  {
    OrderCoversBorder();
  }

  /** The traversal position after `step` ticks; -1 before the first. */
  function CurrentAfter(step: nat): int
  {
    if step == 0 then -1 else (step - 1) % 8
  }

  /** `50 + Math.min(step / steps, 1) * 200`, the wait before the next tick. */
  function StepDelay(step: nat, steps: nat): (delay: real)
    requires steps > 0
    ensures 50.0 <= delay <= 250.0
    ensures step >= steps ==> delay == 250.0
  {
    50.0 + Min(step as real / steps as real, 1.0) * 200.0
  }

  /** The highlight only ever slows down. */
  lemma StepDelayMonotone(s: nat, t: nat, steps: nat)
    requires steps > 0 && s <= t
    ensures StepDelay(s, steps) <= StepDelay(t, steps)
  {
    QuotientMonotone(s as real, t as real, steps as real);
  }

  lemma QuotientMonotone(a: real, b: real, n: real)
    requires 0.0 <= a <= b && n > 0.0
    ensures a / n <= b / n
  {
    assert b / n - a / n == (b - a) / n;
  }

  /** The cell at traversal position `pos`, as a set; empty for -1. */
  function Highlight(pos: int): set<nat>
  {
    if 0 <= pos < 8 then {Order[pos]} else {}
  }

  /** The highlight before `step` ticks: the current cell, plus the stale one until the sweep has passed it. */
  function Lit(step: nat, stale: int): set<nat>
  {
    Highlight(CurrentAfter(step)) + (if step <= stale + 1 then Highlight(stale) else {})
  }

  /** One tick's remove-then-add turns the highlight before `step` ticks into the one after `step + 1`. */
  lemma TickMovesHighlight(step: nat, stale: int)
    requires -1 <= stale < 8
    ensures CurrentAfter(step + 1) == (CurrentAfter(step) + 1) % 8
    ensures (Lit(step, stale) - Highlight(CurrentAfter(step))) + {Order[CurrentAfter(step + 1)]} == Lit(step + 1, stale)
    ensures step + 1 > stale + 1 ==> Lit(step + 1, stale) == {Order[CurrentAfter(step + 1)]}
  {
    OrderCoversBorder();
    var c, d := CurrentAfter(step), CurrentAfter(step + 1);
    assert 0 <= d < 8 && Highlight(d) == {Order[d]};
    if step <= stale {
      assert c < stale && Highlight(stale) == {Order[stale]};
      assert c < 0 || Order[c] != Order[stale];
      assert Lit(step, stale) - Highlight(c) == Highlight(stale);
    } else {
      assert step == stale + 1 ==> c == stale;
      assert Lit(step, stale) - Highlight(c) == {};
    }
  }

  /** What one tick of a run does to the position and the highlight, and where the last one lands. */
  lemma TickLands(step: nat, stale: int, loops: nat, targetIndex: nat)
    requires -1 <= stale < 8 && 3 <= loops <= 4 && targetIndex < 8 && step < TotalSteps(loops, targetIndex)
    ensures var c := CurrentAfter(step + 1);
      0 <= c < 8 == |Order| && c == (CurrentAfter(step) + 1) % |Order| &&
      (CurrentAfter(step) >= 0 ==> Highlight(CurrentAfter(step)) == {Order[CurrentAfter(step)]}) &&
      (CurrentAfter(step) < 0 ==> Highlight(CurrentAfter(step)) == {}) &&
      (Lit(step, stale) - Highlight(CurrentAfter(step))) + {Order[c]} == Lit(step + 1, stale)
    ensures step + 1 == TotalSteps(loops, targetIndex) ==>
      CurrentAfter(step + 1) == targetIndex && Lit(step + 1, stale) == {Order[targetIndex]} &&
      Order[targetIndex] < 9 == |Prizes| && Order[targetIndex] != CentreCell
  {
    TickMovesHighlight(step, stale);
    LastStepLandsOnTarget(loops, targetIndex);
  }

  datatype TickOutcome = Continue(delay: real) | Resolved(prize: PrizeInfo, index: nat)

  class GridLottery {
    var isSpinning: bool
    /** The grid element carries the `marquee` class. */
    var marquee: bool
    /** The cells carrying the `active` class. */
    var active: set<nat>
    // The counters of the running `spin` closure, advanced by `tick`.
    var steps: nat
    var step: nat
    var current: int
    ghost var targetIndex: nat
    ghost var loops: nat
    /**
      * The traversal position the previous draw left highlighted (-1 before
      * the first draw): no code removes that highlight until the next run's
      * sweep reaches it.
      */
    ghost var stale: int

    ghost predicate Valid()
      reads this
    {
      marquee == isSpinning && -1 <= stale < 8 &&
      (isSpinning ==>
        3 <= loops <= 4 && targetIndex < 8 && steps == TotalSteps(loops, targetIndex) &&
        step < steps && current == CurrentAfter(step) && active == Lit(step, stale)) &&
      (!isSpinning ==> active == Highlight(stale))
    }

    /** A fresh grid: idle, nothing highlighted. */
    constructor ()
      ensures Valid() && !isSpinning && active == {} && stale == -1
    {
      isSpinning, marquee, active := false, false, {};
      steps, step, current := 0, 0, -1;
      targetIndex, loops, stale := 0, 0, -1;
    }

    /**
      * `spin`, with the two `Math.random()` draws passed in. While a run is
      * in progress the call is rejected with no change. Otherwise the target
      * position and the number of loops are fixed up front, the counters
      * start at `step = 0`, `current = -1`, and the first tick is asked for
      * after `FirstTickDelay`.
      */
    method Spin(targetRand: real, loopsRand: real) returns (accepted: bool, firstTick: Option<real>)
      requires Valid() && 0.0 <= targetRand < 1.0 && 0.0 <= loopsRand < 1.0
      modifies this
      ensures Valid() && active == old(active) && stale == old(stale)
      ensures accepted == !old(isSpinning) && isSpinning
      ensures !accepted ==> firstTick == None && steps == old(steps) && step == old(step) && current == old(current)
      ensures accepted ==> firstTick == Some(FirstTickDelay)
      ensures accepted ==>
        targetIndex == UniformIndex(targetRand, |Order|) && loops == 3 + UniformIndex(loopsRand, 2) &&
        steps == TotalSteps(loops, targetIndex) && step == 0 && current == -1
    {
      if isSpinning {
        return false, None;
      }
      isSpinning := true;
      var target := UniformIndex(targetRand, |Order|);
      var extraLoops := 3 + UniformIndex(loopsRand, 2);
      targetIndex, loops := target, extraLoops;
      steps := TotalSteps(extraLoops, target);
      step := 0;
      current := -1;
      marquee := true;
      accepted, firstTick := true, Some(FirstTickDelay);
    }

    /**
      * One `tick`: the highlight leaves the current cell and moves to the next
      * position of the ring, and the step count goes up by one. Before the
      * last step it asks for the next tick after `StepDelay`; on step
      * `steps` it ends the run on `order[targetIndex]`, which is then the only
      * highlighted cell.
      */
    method Tick() returns (outcome: TickOutcome)
      requires Valid() && isSpinning
      modifies this
      ensures Valid()
      ensures steps == old(steps) && targetIndex == old(targetIndex) && loops == old(loops)
      ensures step == old(step) + 1 && current == CurrentAfter(step) && 0 <= current < 8
      ensures active == (old(active) - Highlight(old(current))) + {Order[current]}
      ensures step > stale + 1 ==> active == {Order[current]}
      ensures step < steps ==> isSpinning && stale == old(stale) && outcome == Continue(StepDelay(step, steps))
      ensures step == steps ==>
        !isSpinning && current == targetIndex && active == {Order[targetIndex]} &&
        outcome == Resolved(Prizes[Order[targetIndex]], Order[targetIndex]) && Order[targetIndex] != CentreCell
    {
      TickLands(step, stale, loops, targetIndex);
      var lit := active;
      if current >= 0 {
        lit := lit - {Order[current]};
      }
      var next := (current + 1) % |Order|;
      lit := lit + {Order[next]};
      var nextStep := step + 1;
      if nextStep < steps {
        active, current, step := lit, next, nextStep;
        outcome := Continue(StepDelay(step, steps));
      } else {
        active, current, step := lit, next, nextStep;
        isSpinning, marquee, stale := false, false, next;
        var prizeIdx := Order[next];
        outcome := Resolved(Prizes[prizeIdx], prizeIdx);
      }
    }

    /**
      * A whole run, each tick fired by the timer the previous one set: it ends
      * after exactly `steps` ticks with the cell fixed by `spin`.
      */
    method RunToEnd() returns (ticks: nat, outcome: TickOutcome)
      requires Valid() && isSpinning && step == 0
      modifies this
      ensures Valid() && !isSpinning && ticks == old(steps)
      ensures outcome == Resolved(Prizes[Order[old(targetIndex)]], Order[old(targetIndex)])
      ensures active == {Order[old(targetIndex)]}
    {
      outcome := Tick();
      ticks := 1;
      while outcome.Continue?
        invariant Valid() && steps == old(steps) && targetIndex == old(targetIndex)
        invariant ticks == step <= steps
        invariant outcome.Continue? <==> isSpinning
        invariant outcome.Resolved? ==>
          step == steps && outcome == Resolved(Prizes[Order[targetIndex]], Order[targetIndex]) &&
          active == {Order[targetIndex]}
        decreases steps - step
      {
        outcome := Tick();
        ticks := ticks + 1;
      }
    }
  }
}

=== FILE: js_math.dfy ===
/** Small pieces of JavaScript's number semantics that the lottery code relies on. */
module JsMath {

  datatype Option<+T> = None | Some(value: T)

  /** `Math.floor(x)` */
  function Floor(x: real): int
  {
    x.Floor
  }

  /** `Math.min(a, b)` */
  function Min(a: real, b: real): real
  {
    if a <= b then a else b
  }

  /**
    * `Math.floor(Math.random() * n)` with the drawn value passed in as `rand`:
    * the index of the one of `n` equal slices of `[0, 1)` that `rand` falls in.
    */
  function UniformIndex(rand: real, n: nat): (i: nat)
    requires 0.0 <= rand < 1.0
    ensures n > 0 ==> i < n
    ensures n > 0 ==> (i as real) / (n as real) <= rand < (i + 1) as real / (n as real)
    ensures n == 0 ==> i == 0
  {
    var i := Floor(rand * n as real);
    SliceBounds(rand, n, i);
    i
  }

  /** Dividing the floor bounds of `rand * n` by the positive `n`. */
  lemma SliceBounds(rand: real, n: nat, i: int)
    requires 0.0 <= rand < 1.0
    requires i == (rand * n as real).Floor
    ensures 0 <= i && (n > 0 ==> i < n) && (n == 0 ==> i == 0)
    ensures n > 0 ==> (i as real) / (n as real) <= rand < (i + 1) as real / (n as real)
  {
    if n == 0 { return; }
    var m := n as real;
    assert rand * m < m;
    assert (i as real) <= rand * m < (i + 1) as real;
    assert (i as real) / m <= rand by {
      assert (i as real) / m * m == i as real;
    }
    assert rand < (i + 1) as real / m by {
      assert (i + 1) as real / m * m == (i + 1) as real;
    }
  }
}

=== FILE: wheel.dfy ===
/**
  * The weighted prize wheel `LuckyWheel` (js/wheel.js): sector layout from
  * weights, the two prize selectors, the spin with its pre-committed target
  * angle, the eased animation frames, reading the prize back from the angle,
  * and the text contrast colour. Angles are exact reals (see module Angles).
  */
module Wheel {
  import opened JsMath
  import opened Angles

  /** One prize entry; `startAngle`/`endAngle` are written by the layout. */
  datatype Prize = Prize(text: string, color: string, bubbleType: string, weight: real, prize: string,
                         startAngle: real, endAngle: real)

  /** The prize table the constructor installs, before its angles are laid out. */
  function DefaultPrizes(): seq<Prize>
  {
    [ Prize("特等奖", "#c0392b", "special", 0.08, "豪华大奖", 0.0, 0.0),
      Prize("谢谢惠顾", "#27ae60", "thanks", 0.15, "谢谢参与", 0.0, 0.0),
      Prize("一等奖", "#9b59b6", "first", 0.12, "一等奖奖品", 0.0, 0.0),
      Prize("再来一次", "#f39c12", "again", 0.15, "再来一次", 0.0, 0.0),
      Prize("二等奖", "#8e44ad", "second", 0.15, "二等奖奖品", 0.0, 0.0),
      Prize("谢谢惠顾", "#636e72", "thanks", 0.15, "谢谢参与", 0.0, 0.0),
      Prize("三等奖", "#3498db", "third", 0.15, "三等奖奖品", 0.0, 0.0),
      Prize("隐藏大奖", "#e74c3c", "hidden", 0.05, "神秘豪华礼包", 0.0, 0.0) ]
  }

  // ---------------------------------------------------------------- layout

  /** The weights of a table, in table order. */
  function Weights(ps: seq<Prize>): (ws: seq<real>)
    ensures |ws| == |ps|
  {
    seq(|ps|, i requires 0 <= i < |ps| => ps[i].weight)
  }

  predicate Positive(ws: seq<real>)
  {
    forall i :: 0 <= i < |ws| ==> ws[i] > 0.0
  }

  /** `prizes.reduce((sum, prize) => sum + prize.weight, 0)`, folded from the left. */
  function Sum(ws: seq<real>): (total: real)
    ensures Positive(ws) ==> total >= 0.0 && (total > 0.0 <==> |ws| > 0)
  {
    if ws == [] then 0.0
    else
      assert Positive(ws) ==> Positive(ws[..|ws| - 1]);
      Sum(ws[..|ws| - 1]) + ws[|ws| - 1]
  }

  /** The running sum `w0 + ... + wi`. */
  function Cumulative(ws: seq<real>, i: nat): real
    requires i < |ws|
  {
    Sum(ws[..i + 1])
  }

  /** The angular width of a sector: `(weight / totalWeight) * 2 * Math.PI`. */
  function Width(weight: real, total: real): real
    requires total != 0.0
  {
    (weight / total) * 2.0 * Pi
  }

  /** The layout accumulator after the first `i` sectors. */
  function AngleBefore(ws: seq<real>, total: real, i: nat): real
    requires total != 0.0 && i <= |ws|
  {
    if i == 0 then 0.0 else AngleBefore(ws, total, i - 1) + Width(ws[i - 1], total)
  }

  /** The table with every sector's angles laid out from the weights. */
  function Layout(ps: seq<Prize>): (laid: seq<Prize>)
    requires Positive(Weights(ps))
    ensures |laid| == |ps|
  {
    var ws := Weights(ps);
    var total := Sum(ws);
    seq(|ps|, i requires 0 <= i < |ps| =>
      ps[i].(startAngle := AngleBefore(ws, total, i), endAngle := AngleBefore(ws, total, i + 1)))
  }

  /** A table whose angles are those the layout gives its weights. */
  ghost predicate LaidOut(ps: seq<Prize>)
  {
    var ws := Weights(ps);
    Positive(ws) &&
    forall i :: 0 <= i < |ps| ==>
      ps[i].startAngle == AngleBefore(ws, Sum(ws), i) && ps[i].endAngle == AngleBefore(ws, Sum(ws), i + 1)
  }

  /** The accumulator is the share of the weight seen so far, times a full turn. */
  lemma {:induction false} AngleBeforeIsShare(ws: seq<real>, total: real, i: nat)
    requires total != 0.0 && i <= |ws|
    ensures AngleBefore(ws, total, i) == Sum(ws[..i]) / total * Tau
  {
    if i == 0 {
      assert ws[..0] == [];
    } else {
      AngleBeforeIsShare(ws, total, i - 1);
      assert ws[..i][..i - 1] == ws[..i - 1];
      var a, w := Sum(ws[..i - 1]), ws[i - 1];
      assert Sum(ws[..i]) == a + w;
      SharesAdd(a, w, total);
    }
  }

  lemma SharesAdd(a: real, w: real, total: real)
    requires total != 0.0
    ensures (a + w) / total == a / total + w / total
  {
    var x, y := a / total, w / total;
    assert x * total == a && y * total == w;
    assert (x + y) * total == a + w;
  }

  lemma WholeShare(total: real)
    requires total > 0.0
    ensures total / total * Tau == Tau
  {
  }

  /** After all sectors the accumulator has gone exactly once round. */
  lemma AccumulatorEndsAtTurn(ws: seq<real>)
    requires Positive(ws) && |ws| > 0
    ensures AngleBefore(ws, Sum(ws), |ws|) == Tau
  {
    var total := Sum(ws);
    AngleBeforeIsShare(ws, total, |ws|);
    assert ws[..|ws|] == ws;
    WholeShare(total);
  }

  /** With positive weights the accumulator grows strictly at each sector. */
  lemma {:induction false} AngleBeforeIncreasing(ws: seq<real>, total: real, i: nat, j: nat)
    requires Positive(ws) && total > 0.0 && i < j <= |ws|
    ensures AngleBefore(ws, total, i) < AngleBefore(ws, total, j)
    decreases j - i
  {
    assert ws[j - 1] / total > 0.0;
    if i < j - 1 {
      AngleBeforeIncreasing(ws, total, i, j - 1);
    }
  }

  lemma AngleBeforeMonotone(ws: seq<real>, total: real, i: nat, j: nat)
    requires Positive(ws) && total > 0.0 && i <= j <= |ws|
    ensures AngleBefore(ws, total, i) <= AngleBefore(ws, total, j)
  {
    if i < j {
      AngleBeforeIncreasing(ws, total, i, j);
    }
  }

  lemma LayoutKeepsWeights(ps: seq<Prize>)
    requires Positive(Weights(ps))
    ensures Weights(Layout(ps)) == Weights(ps)
  {
    var laid := Layout(ps);
    assert forall i :: 0 <= i < |ps| ==> Weights(laid)[i] == laid[i].weight == ps[i].weight == Weights(ps)[i];
  }

  /**
    * `calculateSegmentAngles` on a table with positive weights: the entries
    * keep their order and their other fields, sector 0 starts at 12 o'clock
    * (angle 0), each sector starts where the previous one ends, each is
    * `(weight / totalWeight) * 2π` wide, and the last ends at exactly one
    * full turn.
    */
  lemma LayoutPartitionsTurn(ps: seq<Prize>)
    requires Positive(Weights(ps)) && |ps| > 0
    ensures |Layout(ps)| == |ps|
    ensures forall i :: 0 <= i < |ps| ==>
      Layout(ps)[i] == ps[i].(startAngle := Layout(ps)[i].startAngle, endAngle := Layout(ps)[i].endAngle)
    ensures Layout(ps)[0].startAngle == 0.0
    ensures forall i :: 0 < i < |ps| ==> Layout(ps)[i].startAngle == Layout(ps)[i - 1].endAngle
    ensures forall i :: 0 <= i < |ps| ==>
      Layout(ps)[i].endAngle - Layout(ps)[i].startAngle == Width(ps[i].weight, Sum(Weights(ps)))
    ensures Layout(ps)[|ps| - 1].endAngle == Tau
  {
    LayoutIsContiguous(ps);
    LayoutWidths(ps);
    AccumulatorEndsAtTurn(Weights(ps));
  }

  /** Sector 0 starts at angle 0 and each later sector starts where the one before it ends. */
  lemma LayoutIsContiguous(ps: seq<Prize>)
    requires Positive(Weights(ps)) && |ps| > 0
    ensures Layout(ps)[0].startAngle == 0.0
    ensures forall i :: 0 < i < |ps| ==> Layout(ps)[i].startAngle == Layout(ps)[i - 1].endAngle
  {
    var ws := Weights(ps);
    var laid := Layout(ps);
    forall i | 0 < i < |ps|
      ensures laid[i].startAngle == laid[i - 1].endAngle
    {
      assert laid[i].startAngle == AngleBefore(ws, Sum(ws), i);
      assert laid[i - 1].endAngle == AngleBefore(ws, Sum(ws), i);
    }
  }

  /** Each sector is its weight's share of a full turn wide. */
  lemma LayoutWidths(ps: seq<Prize>)
    requires Positive(Weights(ps))
    ensures forall i :: 0 <= i < |ps| ==>
      Layout(ps)[i].endAngle - Layout(ps)[i].startAngle == Width(ps[i].weight, Sum(Weights(ps)))
  {
    var ws := Weights(ps);
    var laid := Layout(ps);
    forall i | 0 <= i < |ps|
      ensures laid[i].endAngle - laid[i].startAngle == Width(ps[i].weight, Sum(ws))
    {
      assert ws[i] == ps[i].weight;
      assert laid[i].endAngle == AngleBefore(ws, Sum(ws), i) + Width(ws[i], Sum(ws));
    }
  }

  /** The layout's result is laid out: laying it out again changes nothing. */
  lemma LayoutIsLaidOut(ps: seq<Prize>)
    requires Positive(Weights(ps))
    ensures LaidOut(Layout(ps))
  {
    var laid, ws := Layout(ps), Weights(ps);
    LayoutKeepsWeights(ps);
    assert Weights(laid) == ws;
    var total := Sum(ws);
    forall i | 0 <= i < |laid|
      ensures laid[i].startAngle == AngleBefore(ws, total, i) && laid[i].endAngle == AngleBefore(ws, total, i + 1)
    {
      assert laid[i] == ps[i].(startAngle := AngleBefore(ws, total, i), endAngle := AngleBefore(ws, total, i + 1));
    }
  }

  /** A sector of a laid-out table is a non-empty arc inside one turn. */
  lemma SectorWithinTurn(ps: seq<Prize>, i: nat)
    requires LaidOut(ps) && i < |ps|
    ensures 0.0 <= ps[i].startAngle < ps[i].endAngle <= Tau
  {
    var ws := Weights(ps);
    var total := Sum(ws);
    AccumulatorEndsAtTurn(ws);
    AngleBeforeMonotone(ws, total, 0, i);
    AngleBeforeIncreasing(ws, total, i, i + 1);
    AngleBeforeMonotone(ws, total, i + 1, |ps|);
  }

  /** Sectors of a laid-out table follow each other without overlapping. */
  lemma SectorsInOrder(ps: seq<Prize>, i: nat, j: nat)
    requires LaidOut(ps) && i < j < |ps|
    ensures ps[i].endAngle <= ps[j].startAngle
  {
    var ws := Weights(ps);
    AngleBeforeMonotone(ws, Sum(ws), i + 1, j);
  }

  // ------------------------------------------------------------- selectors

  /**
    * `selectPrizeByWeight`, with `Math.random()` passed in as `random`: the
    * first index whose running weight sum reaches `random`, or the last index
    * when none does (-1, `prizes.length - 1`, on an empty table).
    */
  method SelectPrizeByWeight(ps: seq<Prize>, random: real) returns (index: int)
    requires 0.0 <= random < 1.0
    ensures index == -1 <==> |ps| == 0
    ensures |ps| > 0 ==> 0 <= index < |ps|
    ensures forall j :: 0 <= j < index ==> random > Cumulative(Weights(ps), j)
    ensures 0 <= index < |ps| - 1 ==> random <= Cumulative(Weights(ps), index)
  {
    var ws := Weights(ps);
    var cumulativeWeight := 0.0;
    var i := 0;
    while i < |ps|
      invariant 0 <= i <= |ps|
      invariant cumulativeWeight == Sum(ws[..i])
      invariant forall j :: 0 <= j < i ==> random > Cumulative(ws, j)
    {
      assert ws[..i + 1][..i] == ws[..i] && ws[i] == ps[i].weight;
      cumulativeWeight := cumulativeWeight + ps[i].weight;
      assert cumulativeWeight == Cumulative(ws, i);
      if random <= cumulativeWeight {
        return i;
      }
      i := i + 1;
    }
    return |ps| - 1;
  }

  /**
    * `getPrizeIndexAtTop`: the index of the equal-width sector (one
    * `count`-th of a turn each) that holds `getNormalizedAngle()`. The clamp
    * to `count - 1` is never needed over exact reals; with `count == 0` the
    * source divides by `Infinity` and the clamp yields -1.
    */
  function PrizeIndexAtTop(currentAngle: real, count: nat): (index: int)
    ensures count == 0 ==> index == -1
    ensures count > 0 ==> 0 <= index < count
    ensures count > 0 ==>
      (index as real) * (Tau / count as real) <= NormalizedAngle(currentAngle) < (index + 1) as real * (Tau / count as real)
  {
    if count == 0 then -1
    else
      var normalizedAngle := NormalizedAngle(currentAngle);
      var anglePerPrize := Tau / count as real;
      var index := Floor(normalizedAngle / anglePerPrize);
      EqualSectorBounds(normalizedAngle, count, index);
      if index >= count then count - 1 else index
  }

  lemma EqualSectorBounds(a: real, count: nat, index: int)
    requires 0.0 <= a < Tau && count > 0
    requires index == (a / (Tau / count as real)).Floor
    ensures 0 <= index < count
    ensures (index as real) * (Tau / count as real) <= a < (index + 1) as real * (Tau / count as real)
  {
    var w := Tau / count as real;
    var q := a / w;
    assert w > 0.0;
    assert q * w == a;
    assert Tau / w == count as real;
    assert q < count as real by {
      assert a / w < Tau / w;
    }
    assert (index as real) * w <= q * w;
    assert q * w < (index + 1) as real * w;
  }

  // ---------------------------------------------------------------- spin

  predicate InSector(p: Prize, angle: real)
  {
    p.startAngle <= angle < p.endAngle
  }

  /** `prize.startAngle + (prize.endAngle - prize.startAngle) / 2` */
  function SectorCentre(p: Prize): (centre: real)
    ensures p.startAngle < p.endAngle ==> InSector(p, centre)
    ensures centre - p.startAngle == p.endAngle - centre
  {
    p.startAngle + (p.endAngle - p.startAngle) / 2.0
  }

  /**
    * The rotation `((π/2 - centre) % 2π + 2π) % 2π` that `spin` aims at: a
    * turn angle which, read back through `normalizeAngleForDisplay`, gives
    * `centre`.
    */
  function TargetAngle(centre: real): (target: real)
    ensures 0.0 <= target < Tau
    ensures NormalizeForDisplay(target) == Wrap(centre)
  {
    var x := Pi / 2.0 - centre;
    RemTauShifted(x);
    WrapOfDifference(Pi / 2.0, x);
    assert Pi / 2.0 - x == centre;
    RemTau(RemTau(x) + Tau)
  }

  /** `spins * 2 * Math.PI + targetAngle - this.currentAngle` */
  function SpinTotal(spins: nat, target: real, currentAngle: real): (total: real)
    ensures 4 <= spins && 0.0 <= target && currentAngle < Tau ==> total > 3.0 * Tau
  {
    (spins as real) * 2.0 * Pi + target - currentAngle
  }

  /**
    * The prize `spin` commits to is the one the settled angle reads back as:
    * the centre of sector `i`, reached through `TargetAngle` and read back
    * through `normalizeAngleForDisplay`, lies in sector `i` and in no other
    * sector of a laid-out table.
    */
  lemma TargetShowsChosenSector(ps: seq<Prize>, i: nat)
    requires LaidOut(ps) && i < |ps|
    ensures InSector(ps[i], NormalizeForDisplay(TargetAngle(SectorCentre(ps[i]))))
    ensures forall j :: 0 <= j < |ps| && j != i ==>
      !InSector(ps[j], NormalizeForDisplay(TargetAngle(SectorCentre(ps[i]))))
  {
    var c := SectorCentre(ps[i]);
    SectorWithinTurn(ps, i);
    WrapOfTurnAngle(c);
    forall j | 0 <= j < |ps| && j != i
      ensures !InSector(ps[j], c)
    {
      if j < i {
        SectorsInOrder(ps, j, i);
      } else {
        SectorsInOrder(ps, i, j);
      }
    }
  }

  // ------------------------------------------------------ drawing geometry

  /**
    * The canvas angle at which `drawWheel` paints the wheel angle `a` when the
    * wheel is rotated by `currentAngle`: `a - normalizeAngleForDisplay(currentAngle)`.
    * Canvas angle 0 is 3 o'clock and canvas angles grow clockwise, so
    * 12 o'clock is the canvas angle `-π/2`, that is `1.5π` modulo a turn.
    */
  function CanvasAngle(a: real, currentAngle: real): (c: real)
    ensures a - Tau < c <= a
  {
    a - NormalizeForDisplay(currentAngle)
  }

  /** The two normalisations of the wheel are a quarter turn apart for every rotation. */
  lemma QuarterTurnApart(currentAngle: real)
    ensures NormalizeForDisplay(currentAngle) == Wrap(NormalizedAngle(currentAngle) + Pi / 2.0)
  {
    WrapOfSum(-currentAngle, Pi / 2.0);
  }

  /**
    * Where `drawWheel` puts the two normalised angles: the wheel angle painted
    * at 3 o'clock is `normalizeAngleForDisplay(currentAngle)`, and the one
    * painted at 12 o'clock is `getNormalizedAngle()`.
    */
  lemma DrawnPositions(a: real, currentAngle: real)
    requires 0.0 <= a < Tau
    ensures Wrap(CanvasAngle(a, currentAngle)) == 0.0 <==> a == NormalizeForDisplay(currentAngle)
    ensures Wrap(CanvasAngle(a, currentAngle)) == 1.5 * Pi <==> a == NormalizedAngle(currentAngle)
  {
    var n, t := NormalizeForDisplay(currentAngle), NormalizedAngle(currentAngle);
    QuarterTurnApart(currentAngle);
    WrapBelowTwoTurns(t + Pi / 2.0);
    WrapBelowTwoTurns(a - n);
    assert CanvasAngle(a, currentAngle) == a - n;
  }

  // ------------------------------------------------------------- animation

  /** The animation length in milliseconds. */
  const Duration: nat := 5000

  /** `Math.min(elapsed / duration, 1)` */
  function Progress(elapsed: nat): (progress: real)
    ensures 0.0 <= progress <= 1.0
    ensures progress == 1.0 <==> elapsed >= Duration
    ensures progress == 0.0 <==> elapsed == 0
  {
    Min(elapsed as real / Duration as real, 1.0)
  }

  /** The ease-out curve `1 - Math.pow(1 - progress, 3)`. */
  function EaseOut(progress: real): (eased: real)
    ensures progress == 0.0 ==> eased == 0.0
    ensures progress == 1.0 ==> eased == 1.0
    ensures 0.0 <= progress <= 1.0 ==> 0.0 <= eased <= 1.0
  {
    var rest := 1.0 - progress;
    assert 0.0 <= rest <= 1.0 ==> 0.0 <= rest * rest <= 1.0 && 0.0 <= rest * rest * rest <= rest * rest;
    1.0 - rest * rest * rest
  }

  /** The easing never moves the wheel backwards. */
  lemma EaseOutMonotone(p: real, q: real)
    requires 0.0 <= p <= q <= 1.0
    ensures EaseOut(p) <= EaseOut(q)
  {
    CubeMonotone(1.0 - q, 1.0 - p);
  }

  lemma CubeMonotone(b: real, a: real)
    requires 0.0 <= b <= a
    ensures b * b * b <= a * a * a
  {
    ScaleLe(b, a, b);
    ScaleLeLeft(b, a, a);
    var bb, aa := b * b, a * a;
    ScaleLe(bb, aa, b);
    ScaleLeLeft(b, a, aa);
    assert bb * b <= aa * a;
  }

  lemma ScaleLe(x: real, y: real, z: real)
    requires 0.0 <= x <= y && 0.0 <= z
    ensures 0.0 <= x * z <= y * z
  {
  }

  lemma ScaleLeLeft(x: real, y: real, z: real)
    requires 0.0 <= x <= y && 0.0 <= z
    ensures 0.0 <= z * x <= z * y
  {
  }

  /** The angle a frame draws: `startAngle + totalAngle * easeOut`. */
  function FrameAngle(startAngle: real, totalAngle: real, progress: real): (angle: real)
    ensures progress == 0.0 ==> angle == startAngle
    ensures progress == 1.0 ==> angle == startAngle + totalAngle
  {
    startAngle + totalAngle * EaseOut(progress)
  }

  /**
    * The frames start at the start angle, end exactly one total rotation
    * later, and in between never leave that range or turn back.
    */
  lemma FramesSweepForward(startAngle: real, totalAngle: real, p: real, q: real)
    requires totalAngle > 0.0 && 0.0 <= p <= q <= 1.0
    ensures FrameAngle(startAngle, totalAngle, 0.0) == startAngle
    ensures FrameAngle(startAngle, totalAngle, 1.0) == startAngle + totalAngle
    ensures startAngle <= FrameAngle(startAngle, totalAngle, p) <= FrameAngle(startAngle, totalAngle, q)
    ensures FrameAngle(startAngle, totalAngle, q) <= startAngle + totalAngle
  {
    EaseOutMonotone(p, q);
    var e, f := EaseOut(p), EaseOut(q);
    assert FrameAngle(startAngle, totalAngle, p) == startAngle + totalAngle * e;
    assert FrameAngle(startAngle, totalAngle, q) == startAngle + totalAngle * f;
    ScaleLeLeft(e, f, totalAngle);
    ScaleLeLeft(f, 1.0, totalAngle);
    assert 0.0 <= totalAngle * e <= totalAngle * f <= totalAngle;
  }

  /**
    * The angle the settle callback stores, as the source writes it: the
    * callback adds `totalAngle` to `this.currentAngle`, which the final frame
    * has already advanced to `startAngle + totalAngle`.
    */
  function SettledAngleAsWritten(startAngle: real, totalAngle: real): (stored: real)
    ensures startAngle + 2.0 * totalAngle >= 0.0 ==>
      0.0 <= stored < Tau && stored == Wrap(startAngle + 2.0 * totalAngle)
  {
    var a := FrameAngle(startAngle, totalAngle, 1.0) + totalAngle;
    FoldIsWrap(a);
    RemTau(a)
  }

  /**
    * As written, the stored angle is the target only when the wheel already
    * stood at the target before the spin; otherwise it is `2·target − start`
    * wrapped into one turn.
    */
  lemma SettleAsWrittenMissesTarget(startAngle: real, target: real, spins: nat)
    requires 0.0 <= startAngle < Tau && 0.0 <= target < Tau && spins >= 4
    ensures SettledAngleAsWritten(startAngle, SpinTotal(spins, target, startAngle)) == Wrap(2.0 * target - startAngle)
    ensures SettledAngleAsWritten(startAngle, SpinTotal(spins, target, startAngle)) == target <==> target == startAngle
  {
    var total := SpinTotal(spins, target, startAngle);
    var x := 2.0 * target - startAngle;
    assert startAngle + 2.0 * total == x + ((2 * spins) as real) * Tau;
    WrapTurns(x, 2 * spins);
    if target == startAngle {
      WrapOfTurnAngle(target);
    } else {
      var k := (x / Tau).Floor;
      assert Wrap(x) - target == (target - startAngle) - (k as real) * Tau;
      if k > 0 {
        assert (k as real) * Tau >= Tau;
      } else if k < 0 {
        assert (k as real) * Tau <= -Tau;
      }
    }
  }

  /** The settle callback with the remainder taken once: `this.currentAngle % (2 * Math.PI)`. */
  function SettledAngle(frameAngle: real): (stored: real)
    ensures frameAngle >= 0.0 ==> 0.0 <= stored < Tau && stored == Wrap(frameAngle)
  {
    FoldIsWrap(frameAngle);
    RemTau(frameAngle)
  }

  /** Corrected, the stored angle is exactly the target the spin aimed at. */
  lemma SettleReachesTarget(startAngle: real, target: real, spins: nat)
    requires 0.0 <= startAngle < Tau && 0.0 <= target < Tau && spins >= 4
    ensures SettledAngle(FrameAngle(startAngle, SpinTotal(spins, target, startAngle), 1.0)) == target
  {
    var total := SpinTotal(spins, target, startAngle);
    assert FrameAngle(startAngle, total, 1.0) == target + (spins as real) * Tau;
    RemTauOfNonNegative(target + (spins as real) * Tau);
    WrapTurns(target, spins);
    WrapOfTurnAngle(target);
  }

  // ----------------------------------------------------------- contrast colour

  /** The value of one hexadecimal digit, either case. */
  function HexDigit(c: char): Option<nat>
  {
    if '0' <= c <= '9' then Some(c as nat - '0' as nat)
    else if 'a' <= c <= 'f' then Some(c as nat - 'a' as nat + 10)
    else if 'A' <= c <= 'F' then Some(c as nat - 'A' as nat + 10)
    else None
  }

  predicate AllHex(s: string)
  {
    forall i :: 0 <= i < |s| ==> HexDigit(s[i]).Some?
  }

  /** The length of the leading run of hexadecimal digits. */
  function HexRun(s: string): (n: nat)
    ensures n <= |s| && AllHex(s[..n])
    ensures n < |s| ==> HexDigit(s[n]).None?
  {
    if s == [] || HexDigit(s[0]).None? then 0
    else
      var n := 1 + HexRun(s[1..]);
      assert s[..n] == [s[0]] + s[1..][..n - 1];
      n
  }

  /** The number a string of hexadecimal digits denotes, most significant first. */
  function HexValue(s: string): nat
    requires AllHex(s)
  {
    if s == [] then 0 else HexValue(s[..|s| - 1]) * 16 + HexDigit(s[|s| - 1]).value
  }

  /** `parseInt(s, 16)` on a string of digits: the leading hex digits' value; `None` is `NaN`. */
  function ParseHex(s: string): (value: Option<nat>)
    ensures value.None? <==> |s| == 0 || HexDigit(s[0]).None?
    ensures AllHex(s) && |s| > 0 ==> value == Some(HexValue(s))
  {
    assert AllHex(s) ==> HexRun(s) == |s| && s[..|s|] == s;
    var n := HexRun(s);
    if n == 0 then None else Some(HexValue(s[..n]))
  }

  /** `s.slice(start, end)` for `0 <= start <= end`, clamped to the string. */
  function Slice(s: string, start: nat, end: nat): (r: string)
    requires start <= end
    ensures |r| <= end - start
  {
    var a := if start <= |s| then start else |s|;
    var b := if end <= |s| then end else |s|;
    s[a..b]
  }

  /**
    * `getContrastColor`: black text on a bright background, white otherwise;
    * a channel that does not parse is `NaN`, and `NaN > 128` is false.
    */
  function ContrastColor(hexColor: string): (textColor: string)
    ensures textColor == "#000" || textColor == "#fff"
    ensures textColor == "#000" <==>
      var r, g, b := ParseHex(Slice(hexColor, 1, 3)), ParseHex(Slice(hexColor, 3, 5)), ParseHex(Slice(hexColor, 5, 7));
      r.Some? && g.Some? && b.Some? && r.value * 299 + g.value * 587 + b.value * 114 > 128000
  {
    var r, g, b := ParseHex(Slice(hexColor, 1, 3)), ParseHex(Slice(hexColor, 3, 5)), ParseHex(Slice(hexColor, 5, 7));
    if r.Some? && g.Some? && b.Some? && (r.value * 299 + g.value * 587 + b.value * 114) as real / 1000.0 > 128.0
    then "#000" else "#fff"
  }

  /** The lower-case hexadecimal digit for `d`. */
  function HexChar(d: nat): char
    requires d < 16
  {
    if d < 10 then ('0' as nat + d) as char else ('a' as nat + d - 10) as char
  }

  /** A channel written as two hexadecimal digits, as in `#rrggbb`. */
  function HexByte(v: nat): string
    requires v < 256
  {
    [HexChar(v / 16), HexChar(v % 16)]
  }

  /** Parsing a two-digit channel gives the channel back. */
  lemma ParseHexByte(v: nat)
    requires v < 256
    ensures ParseHex(HexByte(v)) == Some(v)
  {
    var s := HexByte(v);
    HexCharDigit(v / 16);
    HexCharDigit(v % 16);
    assert s[1..][1..] == [];
    assert HexRun(s[1..]) == 1;
    assert HexRun(s) == 2;
    assert s[..2] == s && s[..1] == [s[0]] && s[..1][..0] == [];
    assert HexValue(s[..1]) == v / 16;
  }

  /** `HexDigit` reads back what `HexChar` writes. */
  lemma HexCharDigit(d: nat)
    requires d < 16
    ensures HexDigit(HexChar(d)) == Some(d)
  {
  }

  /** On a `#rrggbb` colour the contrast rule is the weighted brightness threshold. */
  lemma ContrastOfRgb(r: nat, g: nat, b: nat)
    requires r < 256 && g < 256 && b < 256
    ensures ContrastColor("#" + HexByte(r) + HexByte(g) + HexByte(b))
         == if 299 * r + 587 * g + 114 * b > 128000 then "#000" else "#fff"
  {
    var s := "#" + HexByte(r) + HexByte(g) + HexByte(b);
    assert Slice(s, 1, 3) == HexByte(r);
    assert Slice(s, 3, 5) == HexByte(g);
    assert Slice(s, 5, 7) == HexByte(b);
    ParseHexByte(r);
    ParseHexByte(g);
    ParseHexByte(b);
  }

  // ---------------------------------------------------------------- the wheel

  /** The default weights are positive, so the default table lays out. */
  lemma DefaultTableLaysOut()
    ensures Positive(Weights(DefaultPrizes()))
    ensures |Layout(DefaultPrizes())| == 8 && LaidOut(Layout(DefaultPrizes()))
  {
    var ws := Weights(DefaultPrizes());
    assert ws == [0.08, 0.15, 0.12, 0.15, 0.15, 0.15, 0.15, 0.05];
    LayoutIsLaidOut(DefaultPrizes());
  }

  class LuckyWheel {
    var prizes: seq<Prize>
    var currentAngle: real
    var isSpinning: bool
    // What the closures of `spin` and `animateSpin` capture while a spin is in flight.
    var prizeIndex: nat
    var startAngle: real
    var totalAngle: real
    ghost var targetAngle: real
    ghost var spins: nat

    ghost predicate Valid()
      reads this
    {
      |prizes| > 0 && LaidOut(prizes) &&
      (!isSpinning ==> 0.0 <= currentAngle < Tau) &&
      (isSpinning ==>
        prizeIndex < |prizes| && 0.0 <= startAngle < Tau && 4 <= spins <= 7 &&
        targetAngle == TargetAngle(SectorCentre(prizes[prizeIndex])) &&
        totalAngle == SpinTotal(spins, targetAngle, startAngle))
    }

    /** The wheel at rest at angle 0 with the default table laid out. */
    constructor ()
      ensures Valid() && !isSpinning && currentAngle == 0.0
      ensures prizes == Layout(DefaultPrizes())
    {
      prizes := DefaultPrizes();
      currentAngle := 0.0;
      isSpinning := false;
      prizeIndex, startAngle, totalAngle := 0, 0.0, 0.0;
      targetAngle, spins := 0.0, 0;
      new;
      DefaultTableLaysOut();
      CalculateSegmentAngles();
    }

    /** `calculateSegmentAngles`: writes each sector's angles with a running accumulator. */
    method CalculateSegmentAngles()
      requires Positive(Weights(prizes))
      modifies this`prizes
      ensures prizes == Layout(old(prizes))
    {
      var ws := Weights(prizes);
      var totalWeight := Sum(ws);
      var runningAngle := 0.0;
      var i := 0;
      while i < |prizes|
        invariant 0 <= i <= |prizes| == |old(prizes)|
        invariant forall j :: 0 <= j < i ==> prizes[j] == Layout(old(prizes))[j]
        invariant forall j :: i <= j < |prizes| ==> prizes[j] == old(prizes)[j]
        invariant i < |prizes| ==> totalWeight > 0.0
        invariant totalWeight > 0.0 ==> runningAngle == AngleBefore(ws, totalWeight, i)
      {
        var angle := Width(prizes[i].weight, totalWeight);
        assert Layout(old(prizes))[i] == prizes[i].(startAngle := runningAngle, endAngle := runningAngle + angle) by {
          assert prizes[i] == old(prizes)[i] && ws[i] == prizes[i].weight;
        }
        prizes := prizes[i := prizes[i].(startAngle := runningAngle, endAngle := runningAngle + angle)];
        runningAngle := runningAngle + angle;
        i := i + 1;
      }
    }

    /**
      * `spin`, with the two `Math.random()` draws passed in. While a spin is
      * in flight the call is rejected and nothing changes. Otherwise it picks
      * a sector uniformly, aims at its centre, adds 4 to 7 whole turns, and
      * leaves the rest to the animation frames.
      */
    method Spin(indexRand: real, spinsRand: real) returns (accepted: bool)
      requires Valid()
      requires 0.0 <= indexRand < 1.0 && 0.0 <= spinsRand < 1.0
      modifies this
      ensures Valid() && prizes == old(prizes) && currentAngle == old(currentAngle)
      ensures accepted == !old(isSpinning) && isSpinning
      ensures !accepted ==>
        prizeIndex == old(prizeIndex) && startAngle == old(startAngle) && totalAngle == old(totalAngle)
      ensures accepted ==>
        prizeIndex == UniformIndex(indexRand, |prizes|) &&
        spins == 4 + UniformIndex(spinsRand, 4) &&
        startAngle == old(currentAngle) &&
        targetAngle == TargetAngle(SectorCentre(prizes[prizeIndex])) &&
        totalAngle == SpinTotal(spins, targetAngle, startAngle) &&
        totalAngle > 3.0 * Tau
    {
      if isSpinning {
        return false;
      }
      isSpinning := true;
      prizeIndex := UniformIndex(indexRand, |prizes|);
      var prize := prizes[prizeIndex];
      var sectorCentreAngle := SectorCentre(prize);
      var target := TargetAngle(sectorCentreAngle);
      var extraSpins := 4 + UniformIndex(spinsRand, 4);
      targetAngle, spins := target, extraSpins;
      startAngle := currentAngle;
      totalAngle := SpinTotal(extraSpins, target, currentAngle);
      accepted := true;
    }

    /**
      * One call of `animate` inside `animateSpin`, `elapsed` milliseconds
      * after the spin began. Before the end it draws the eased angle; at
      * progress 1 it runs the settle callback once, which clears
      * `isSpinning` and resolves with the pre-chosen prize, and the stored
      * angle, read back through `normalizeAngleForDisplay`, falls in that
      * prize's sector and no other.
      */
    method AnimateFrame(elapsed: nat) returns (settled: Option<nat>)
      requires Valid() && isSpinning
      modifies this
      ensures Valid() && prizes == old(prizes)
      ensures prizeIndex == old(prizeIndex) && startAngle == old(startAngle) && totalAngle == old(totalAngle)
      ensures elapsed < Duration ==>
        settled == None && isSpinning &&
        currentAngle == FrameAngle(startAngle, totalAngle, Progress(elapsed))
      ensures elapsed >= Duration ==>
        settled == Some(prizeIndex) && !isSpinning &&
        currentAngle == old(targetAngle) &&
        InSector(prizes[prizeIndex], NormalizeForDisplay(currentAngle)) &&
        forall j :: 0 <= j < |prizes| && j != prizeIndex ==> !InSector(prizes[j], NormalizeForDisplay(currentAngle))
    {
      var progress := Progress(elapsed);
      currentAngle := FrameAngle(startAngle, totalAngle, progress);
      if progress < 1.0 {
        settled := None;
      } else {
        isSpinning := false;
        SettleReachesTarget(startAngle, targetAngle, spins);
        currentAngle := SettledAngle(currentAngle);
        TargetShowsChosenSector(prizes, prizeIndex);
        settled := Some(prizeIndex);
      }
    }

    /**
      * `getCurrentPrizeByAngle`: the first sector holding the displayed
      * angle, or the last sector when none does (`undefined`, here `None`,
      * on an empty table).
      */
    method GetCurrentPrizeByAngle() returns (index: Option<nat>)
      ensures index == None <==> |prizes| == 0
      ensures index.Some? ==> index.value < |prizes|
      ensures index.Some? ==>
        forall j :: 0 <= j < index.value ==> !InSector(prizes[j], NormalizeForDisplay(currentAngle))
      ensures index.Some? && index.value < |prizes| - 1 ==>
        InSector(prizes[index.value], NormalizeForDisplay(currentAngle))
    {
      var normalizedAngle := NormalizeForDisplay(currentAngle);
      var i := 0;
      while i < |prizes|
        invariant 0 <= i <= |prizes|
        invariant forall j :: 0 <= j < i ==> !InSector(prizes[j], normalizedAngle)
      {
        if normalizedAngle >= prizes[i].startAngle && normalizedAngle < prizes[i].endAngle {
          return Some(i);
        }
        i := i + 1;
      }
      if |prizes| == 0 {
        return None;
      }
      return Some(|prizes| - 1);
    }

    /**
      * A whole settle seen by a caller: the last frame resolves with the
      * committed prize and `getCurrentPrizeByAngle` then reads back that
      * same prize.
      */
    method SettleAndReadBack() returns (resolved: Option<nat>, shown: Option<nat>)
      requires Valid() && isSpinning
      modifies this
      ensures resolved == Some(old(prizeIndex)) && shown == resolved && !isSpinning
    {
      resolved := AnimateFrame(Duration);
      shown := GetCurrentPrizeByAngle();
      assert shown.Some? && shown.value <= prizeIndex;
    }
  }

  /** The running weight sums of the default table that its sectors 0 and 6 are built from. */
  lemma DefaultWeightSums()
    ensures var ws := Weights(DefaultPrizes());
      Sum(ws) == 1.0 && Sum(ws[..1]) == 0.08 && Sum(ws[..6]) == 0.8 && Sum(ws[..7]) == 0.95
  {
    var ws := Weights(DefaultPrizes());
    assert ws == [0.08, 0.15, 0.12, 0.15, 0.15, 0.15, 0.15, 0.05];
    assert ws[..1] == [0.08] && ws[..1][..0] == [];
    assert ws[..2][..1] == ws[..1] && ws[..3][..2] == ws[..2] && ws[..4][..3] == ws[..3];
    assert ws[..5][..4] == ws[..4] && ws[..6][..5] == ws[..5] && ws[..7][..6] == ws[..6];
    assert ws[..8] == ws && ws[..8][..7] == ws[..7];
    assert Sum(ws[..1]) == 0.08;
    assert Sum(ws[..2]) == 0.23;
    assert Sum(ws[..3]) == 0.35;
    assert Sum(ws[..4]) == 0.5;
    assert Sum(ws[..5]) == 0.65;
    assert Sum(ws[..6]) == 0.8;
    assert Sum(ws[..7]) == 0.95;
  }

  /** Sectors 0 and 6 of the laid-out default table. */
  lemma DefaultSectors()
    ensures Positive(Weights(DefaultPrizes()))
    ensures var ps := Layout(DefaultPrizes());
      |ps| == 8 && ps[0].startAngle == 0.0 && ps[0].endAngle == 0.16 * Pi &&
      ps[6].startAngle == 1.6 * Pi && ps[6].endAngle == 1.9 * Pi
  {
    var ws := Weights(DefaultPrizes());
    DefaultWeightSums();
    AngleBeforeIsShare(ws, 1.0, 1);
    AngleBeforeIsShare(ws, 1.0, 6);
    AngleBeforeIsShare(ws, 1.0, 7);
  }

  /**
    * The discrepancy on the default table: a first spin from angle 0 that
    * commits to sector 0 (特等奖) with 4 extra turns stores, as written, an
    * angle that `normalizeAngleForDisplay` reads back inside sector 6 (三等奖)
    * and outside sector 0.
    */
  lemma FirstSpinStoresWrongAngle()
    ensures var ps := Layout(DefaultPrizes());
      var target := TargetAngle(SectorCentre(ps[0]));
      var shown := NormalizeForDisplay(SettledAngleAsWritten(0.0, SpinTotal(4, target, 0.0)));
      |ps| == 8 && !InSector(ps[0], shown) && InSector(ps[6], shown)
  {
    DefaultSectors();
    var ps := Layout(DefaultPrizes());
    FirstSectorSpin(ps[0], ps[6]);
  }

  /**
    * The same spin on any pair of sectors laid out as sectors 0 and 6 of the
    * default table: the centre of the first is aimed at 0.42π, and the angle
    * stored as written, 0.84π, is read back at 1.66π.
    */
  lemma FirstSectorSpin(first: Prize, seventh: Prize)
    requires first.startAngle == 0.0 && first.endAngle == 0.16 * Pi
    requires seventh.startAngle == 1.6 * Pi && seventh.endAngle == 1.9 * Pi
    ensures var target := TargetAngle(SectorCentre(first));
      var shown := NormalizeForDisplay(SettledAngleAsWritten(0.0, SpinTotal(4, target, 0.0)));
      target == 0.42 * Pi && shown == 1.66 * Pi &&
      !InSector(first, shown) && InSector(seventh, shown)
  {
    assert SectorCentre(first) == 0.08 * Pi;
    AimAtFirstCentre();
    var target := 0.42 * Pi;
    var stored := SettledAngleAsWritten(0.0, SpinTotal(4, target, 0.0));
    SettleAsWrittenMissesTarget(0.0, target, 4);
    WrapOfTurnAngle(0.84 * Pi);
    assert stored == 0.84 * Pi;
    WrapTurns(-0.34 * Pi, 1);
    WrapOfTurnAngle(1.66 * Pi);
    assert NormalizeForDisplay(stored) == 1.66 * Pi;
  }

  /** The turn angle 0.42π reads back, through `normalizeAngleForDisplay`, as the centre 0.08π of the first default sector. */
  lemma AimAtFirstCentre()
    ensures TargetAngle(0.08 * Pi) == 0.42 * Pi
  {
    var x := Pi / 2.0 - 0.08 * Pi;
    RemTauShifted(x);
    assert x == 0.42 * Pi;
    WrapOfTurnAngle(x);
  }

}
